=== FILE: README.md ===
# Kabin code generation: DAO bodies and entity mappers

Kabin is a Kotlin symbol processor that generates a database layer from annotated
interfaces. This project models two of its generators in Dafny and proves properties of
them.

- **DAO implementation generator.** For each DAO interface it generates a class named
  `<Dao><suffix>`. Each declared function gets an overriding body of one of two kinds:
  - a passthrough statement that forwards to the generated queries object or to the
    interface's own implementation;
  - for functions whose result is a compound (an entity plus its related properties), a
    chain of `.map { ... }` blocks, one per collection or flow layer of the declared return
    type. The compound is built inside the innermost block, from one query per property.

  A transactional function has its body wrapped in a `transaction` or
  `transactionWithResult` block.
- **Entity row mapper generator.** For each entity it generates the body of
  `KabinMapper.map`:
  - a parsing pass that binds one local per stored column, read from the cursor at a
    position that moves on by one after a plain column and, after an embedded group, by
    the group's number of direct columns (see "Findings" for what this does to nested
    groups);
  - an initialisation pass that builds the entity as one nested constructor literal over
    those locals.

  Both passes walk the column tree depth-first through embedded objects.

Generated code is modelled as a sequence of `Line`s:
- `Stmt(text)` stands for `addStatement`;
- `Begin(text)` stands for `beginControlFlow`;
- `End` stands for `endControlFlow`.

Exceptions become `Result` failures, one `GenError` constructor per kind of failure.

The generators call helpers whose definitions are not part of this model:
- `toPascalCase`;
- `typeInitializer`;
- `getDataReturnType`;
- `getAdapterReference`;
- `sqlType`;
- adapter property naming;
- class-name rendering.

Each of these is an arbitrary total function passed in through `Specs.Helpers`, so every
result proved here holds whatever they compute.

Modules:
- `Wrappers`: `Option` and `Result`.
- `Code`: lines, block balance, and Kotlin's `isBlank` and `joinToString`.
- `Specs`: the resolved specification tree.
- `EntityMapper` and `EntityProofs`: the entity row mapper and its properties.
- `DaoGenerator` and `DaoProofs`: the DAO body generator and its properties.

Facts about the code that shape the model:
- `addCompoundReturnLogic` recurses through any number of collection and stream layers,
  opening one `.map` block per layer.
- The passthrough names the queries property through `KabinDao::queries.name`. The compound
  path writes `queries.` literally. Both are the string `"queries"`.
- In a wrapper layer, the accessor of that layer is computed before the nested flag is
  consulted. So a stream of streams fails even where the accessor text is not emitted.

Paths in the table below are relative to the repository root:
- `DaoGenerator.kt` is
  `library/compiler/src/jvmMain/kotlin/com/attafitamim/kabin/compiler/sql/generator/dao/DaoGenerator.kt`;
- `PoetEntityUtils.kt` is
  `library/compiler/src/jvmMain/kotlin/com/attafitamim/kabin/compiler/sql/utils/poet/entity/PoetEntityUtils.kt`.

## Model

| member | source | states |
|---|---|---|
| EntityMapper.GetParseFunction | library/compiler/src/jvmMain/kotlin/com/attafitamim/kabin/compiler/sql/utils/poet/entity/PoetEntityUtils.kt:41-48 | fails, with the undefined-affinity error, exactly on `UNDEFINED`; `INTEGER`, `REAL`, `TEXT` and `NONE` each get the getter the natively supported table gives the affinity's Kotlin type (`getLong`, `getDouble`, `getString`, `getBytes`), and `NUMERIC` gets `getString` |
| EntityMapper.PropertyAccess | library/compiler/src/jvmMain/kotlin/com/attafitamim/kabin/compiler/sql/utils/poet/entity/PoetEntityUtils.kt:84-88 | a column's local is its property name when the parent path is null or blank, and otherwise is the parent path followed by the Pascal-cased property name (starts with the one, ends with the other, and has their combined length) |
| EntityProofs.LeavesUnderParent | library/compiler/src/jvmMain/kotlin/com/attafitamim/kabin/compiler/sql/utils/poet/entity/PoetEntityUtils.kt:106-111 | inside a group reached through a non-blank access path, every stored column's local starts with that path, however deep the nesting |
| EntityMapper.ColumnParser | library/compiler/src/jvmMain/kotlin/com/attafitamim/kabin/compiler/sql/utils/poet/entity/PoetEntityUtils.kt:175-183 | registers exactly the column's adapter; with an adapter it succeeds iff the explicit affinity (else the declared type's) is not `UNDEFINED`, and then reads with that affinity's getter; without one it succeeds iff the qualified name is one of the five natively supported types, and then reads with that type's getter; a failure is the undefined-affinity error or the missing-parser error for the qualified name |
| EntityMapper.Leaves | library/compiler/src/jvmMain/kotlin/com/attafitamim/kabin/compiler/sql/utils/poet/entity/PoetEntityUtils.kt:82-116 | the depth-first column order holds plain columns only; embedded groups are replaced by their contents |
| EntityMapper.ParseColumnsCorrect | library/compiler/src/jvmMain/kotlin/com/attafitamim/kabin/compiler/sql/utils/poet/entity/PoetEntityUtils.kt:75-120 | specifies `EntityMapper.ParseColumns`, the corrected `addEntityPropertyParsing`: the parsing pass, with the position threaded through groups, succeeds iff every stored column has a parser; it then binds the stored columns in depth-first order, with their access-path names and getters, at consecutive positions from the start; the next free position is the start plus the number of stored columns; the adapters returned are exactly those the stored columns need |
| EntityMapper.ParseColumnsAsWrittenCorrect | library/compiler/src/jvmMain/kotlin/com/attafitamim/kabin/compiler/sql/utils/poet/entity/PoetEntityUtils.kt:75-120 | specifies `EntityMapper.ParseColumnsAsWritten`, `addEntityPropertyParsing` as written: the parsing pass as written succeeds iff every stored column has a parser; it binds the same names and getters in the same order and returns the same adapters as the threaded pass; positions are stated separately (see Findings) |
| EntityMapper.PropertyDecoding | library/compiler/src/jvmMain/kotlin/com/attafitamim/kabin/compiler/sql/utils/poet/entity/PoetEntityUtils.kt:189-210 | a constructor argument starts with its local; with an adapter it is exactly `<local>?.let(<adapter>::decode)` for a nullable column and `<local>!!.let(<adapter>::decode)` otherwise (prefix, suffix and length); without an adapter it is the bare local for a nullable column and `<local>!!` otherwise |
| EntityMapper.EntityInitialization | library/compiler/src/jvmMain/kotlin/com/attafitamim/kabin/compiler/sql/utils/poet/entity/PoetEntityUtils.kt:122-167 | a constructor literal opens with `T(`, prefixed by `return ` exactly at the top level, and closes with `)` at the top level or `),` when nested |
| EntityMapper.ColumnInitialization | library/compiler/src/jvmMain/kotlin/com/attafitamim/kabin/compiler/sql/utils/poet/entity/PoetEntityUtils.kt:134-160 | the argument list of a literal is empty exactly when the entity or group has no columns |
| EntityMapper.EntityParseFunctionAsWritten | library/compiler/src/jvmMain/kotlin/com/attafitamim/kabin/compiler/sql/utils/poet/entity/PoetEntityUtils.kt:50-73 | `addEntityParseFunction` over the pass as written: the mapper is generated iff every stored column has a parser; line k then binds the k-th stored column's local with its getter at the k-th of `AsWrittenPositions`; the lines after the parse statements are the constructor literal `EntityInitialization`, line by line, from `return T(` to `)`; the adapters are exactly those the stored columns need |
| EntityMapper.AsWrittenReadsPositions | library/compiler/src/jvmMain/kotlin/com/attafitamim/kabin/compiler/sql/utils/poet/entity/PoetEntityUtils.kt:75-120 | the pass as written reads each stored column from the position that moves on by one per plain column and by the direct column count per embedded group, one position per binding |
| EntityMapper.EntityParseFunction | library/compiler/src/jvmMain/kotlin/com/attafitamim/kabin/compiler/sql/utils/poet/entity/PoetEntityUtils.kt:50-73 | the corrected mapper, over the threaded pass: generated iff every stored column has a parser; line k then reads the k-th stored column at position k with its getter; the lines after the parse statements are the constructor literal `EntityInitialization`, line by line, from `return T(` to `)`; the adapters are exactly those the stored columns need |
| EntityProofs.AsWrittenMatchesThreaded | library/compiler/src/jvmMain/kotlin/com/attafitamim/kabin/compiler/sql/utils/poet/entity/PoetEntityUtils.kt:106-115 | when every embedded group, at every depth, has as many direct columns as stored columns, the pass as written emits exactly the threaded pass's bindings and adapters, and fails in the same cases |
| EntityProofs.AsWrittenConsecutiveWhenFlat | library/compiler/src/jvmMain/kotlin/com/attafitamim/kabin/compiler/sql/utils/poet/entity/PoetEntityUtils.kt:75-120 | when embedded groups hold only plain columns, the pass as written reads the stored columns in depth-first order at consecutive positions |
| EntityProofs.NestedEmbeddingReusesIndex | library/compiler/src/jvmMain/kotlin/com/attafitamim/kabin/compiler/sql/utils/poet/entity/PoetEntityUtils.kt:114 | for a group `a` holding a group `b` of `x` and `y`, followed by `c`: as written, `c` is read from position 1, the position of `aby`; the threaded pass reads positions 0, 1 and 2 |
| EntityProofs.AsWrittenMapperWhenAligned | library/compiler/src/jvmMain/kotlin/com/attafitamim/kabin/compiler/sql/utils/poet/entity/PoetEntityUtils.kt:50-73 | when every embedded group, at every depth, has as many direct columns as stored columns, the mapper as generated is exactly the corrected mapper |
| EntityProofs.NestedEmbeddingMapper | library/compiler/src/jvmMain/kotlin/com/attafitamim/kabin/compiler/sql/utils/poet/entity/PoetEntityUtils.kt:50-73 | for the same entity, the generated mapper's parse statements for `aby` and `c` both read position 1, while the corrected mapper reads `c` from position 2 |
| EntityProofs.InitArgumentsFollowLeaves | library/compiler/src/jvmMain/kotlin/com/attafitamim/kabin/compiler/sql/utils/poet/entity/PoetEntityUtils.kt:134-160 | the initialisation pass passes one argument per stored column, in the same depth-first order as the parsing pass, each naming that column's local and decoded by its nullability and adapter |
| EntityProofs.EntityInitializationArguments | library/compiler/src/jvmMain/kotlin/com/attafitamim/kabin/compiler/sql/utils/poet/entity/PoetEntityUtils.kt:122-167 | a whole constructor literal, nested literals included, carries exactly those arguments |
| EntityProofs.InitOpensFollowGroups | library/compiler/src/jvmMain/kotlin/com/attafitamim/kabin/compiler/sql/utils/poet/entity/PoetEntityUtils.kt:134-160 | the initialisation pass opens one nested constructor literal per embedded group, in depth-first order, each naming the group's class, with `return ` only for a blank access path; so the literal has exactly as many blocks as there are embedded groups |
| EntityProofs.EntityInitializationOpens | library/compiler/src/jvmMain/kotlin/com/attafitamim/kabin/compiler/sql/utils/poet/entity/PoetEntityUtils.kt:122-167 | a constructor literal opens its own class first, then one literal per embedded group under it, in depth-first order |
| EntityProofs.GroupsAreNested | library/compiler/src/jvmMain/kotlin/com/attafitamim/kabin/compiler/sql/utils/poet/entity/PoetEntityUtils.kt:128-132 | under a non-blank access path, or at the top level with non-blank property names, every embedded group's literal is nested: it opens without `return ` |
| EntityProofs.GroupLiteralAt | library/compiler/src/jvmMain/kotlin/com/attafitamim/kabin/compiler/sql/utils/poet/entity/PoetEntityUtils.kt:152-158 | the k-th embedded group's literal sits whole in the initialisation pass after exactly k earlier openings; it opens with the group's class, closes with `),` when nested, carries exactly the arguments of the group's stored columns, and is balanced |
| EntityProofs.ParseAndInitAgreeAsWritten | library/compiler/src/jvmMain/kotlin/com/attafitamim/kabin/compiler/sql/utils/poet/entity/PoetEntityUtils.kt:50-73 | in the mapper as generated (`EntityParseFunctionAsWritten`), the lines after the parse statements are the constructor literal, which has as many arguments as there are parse statements; the k-th argument's expression starts with the local that body line k binds, and that line reads it from the k-th of `AsWrittenPositions`; an argument decoded through an adapter uses one the mapper registers |
| EntityProofs.ParseAndInitAgree | library/compiler/src/jvmMain/kotlin/com/attafitamim/kabin/compiler/sql/utils/poet/entity/PoetEntityUtils.kt:50-73 | in the corrected mapper (`EntityParseFunction`), the lines after the parse statements are the constructor literal, which has as many arguments as there are parse statements; the k-th argument's expression starts with the local that body line k binds, and that line reads it from position k; an argument decoded through an adapter uses one the mapper registers |
| EntityProofs.ColumnInitializationBalanced | library/compiler/src/jvmMain/kotlin/com/attafitamim/kabin/compiler/sql/utils/poet/entity/PoetEntityUtils.kt:134-160 | every nested constructor literal the arguments open is closed, innermost first |
| EntityProofs.EntityInitializationBalanced | library/compiler/src/jvmMain/kotlin/com/attafitamim/kabin/compiler/sql/utils/poet/entity/PoetEntityUtils.kt:122-167 | a whole constructor literal is well nested |
| DaoGenerator.AwaitFunction | library/compiler/src/jvmMain/kotlin/com/attafitamim/kabin/compiler/sql/generator/dao/DaoGenerator.kt:374-396 | fails, with the nested-streams error, exactly on a stream of streams; otherwise yields one of the six accessors |
| DaoProofs.AwaitFunctionAccess | library/compiler/src/jvmMain/kotlin/com/attafitamim/kabin/compiler/sql/generator/dao/DaoGenerator.kt:374-396 | the chosen accessor promises exactly how the declared type is observed (once or as a flow, one row or a list, nullable or not), against an independent reading of the type's shape |
| DaoProofs.AccessOfInjective | library/compiler/src/jvmMain/kotlin/com/attafitamim/kabin/compiler/sql/generator/dao/DaoGenerator.kt:374-396 | distinct accessors promise distinct observations, so the accessor name determines the observed shape |
| DaoProofs.ReactiveAccessors | library/compiler/src/jvmMain/kotlin/com/attafitamim/kabin/compiler/sql/generator/dao/DaoGenerator.kt:381-395 | the accessor starts with `asFlow` exactly when the declared type is a stream |
| DaoProofs.EntityIsObservable | library/compiler/src/jvmMain/kotlin/com/attafitamim/kabin/compiler/sql/generator/dao/DaoGenerator.kt:375-379 | every entity, compound or class result has an accessor |
| DaoGenerator.ReturnAwait | library/compiler/src/jvmMain/kotlin/com/attafitamim/kabin/compiler/sql/generator/dao/DaoGenerator.kt:152 | there is no accessor without a return type; otherwise it is the return type's own accessor, and the failure is the return type's failure when it has none |
| DaoProofs.SimpleReturnText | library/compiler/src/jvmMain/kotlin/com/attafitamim/kabin/compiler/sql/generator/dao/DaoGenerator.kt:145-177 | specifies `DaoGenerator.SimpleReturnLogic` (`addSimpleReturnLogic`): the passthrough succeeds iff there is no return type or the return type has an accessor; the statement is then the callee, prefixed by `return ` when there is a return type and no transaction |
| DaoProofs.SimpleReturnPrefix | library/compiler/src/jvmMain/kotlin/com/attafitamim/kabin/compiler/sql/generator/dao/DaoGenerator.kt:145-177 | the passthrough is one statement; it starts with `return ` exactly when there is a return type and no transaction; without that prefix it is exactly the callee |
| DaoProofs.CalleeShape | library/compiler/src/jvmMain/kotlin/com/attafitamim/kabin/compiler/sql/generator/dao/DaoGenerator.kt:153-168 | without an action the callee is `super.<fn>(<params>)`; otherwise it starts with `queries.<fn>(<params>)`, is exactly that when there is no return type, and ends in `.<accessor>()` when there is one |
| DaoGenerator.FindColumn | library/compiler/src/jvmMain/kotlin/com/attafitamim/kabin/compiler/sql/generator/dao/DaoGenerator.kt:248-250 | finds the first column with the given SQL name, and nothing exactly when no column has that name |
| DaoProofs.PropertyDeclarationShape | library/compiler/src/jvmMain/kotlin/com/attafitamim/kabin/compiler/sql/generator/dao/DaoGenerator.kt:333-348 | specifies `DaoGenerator.PropertyDeclaration` (`addCompoundPropertyDeclaration`): a property declaration succeeds iff the property's type has an accessor; it is then a statement that starts with `val <p> = queries.<fn><P>(<params>)`, ends in `.<accessor>()`, and has nothing in between |
| DaoProofs.RelationDeclarationsSucceed | library/compiler/src/jvmMain/kotlin/com/attafitamim/kabin/compiler/sql/generator/dao/DaoGenerator.kt:246-267 | specifies `DaoGenerator.RelationDeclarations` (the relation loop of `addCompoundMappingLogic`): relation declarations succeed iff every relation names an existing parent column and has an observable property |
| DaoProofs.RelationDeclarationsFailure | library/compiler/src/jvmMain/kotlin/com/attafitamim/kabin/compiler/sql/generator/dao/DaoGenerator.kt:246-267 | when not every relation is wired, some relation is the first one that is not; the declarations then fail with `UnresolvedColumn` naming that relation's parent column when `columns.first` finds no column of that name, and otherwise with `NestedStreams` from its property's accessor |
| DaoProofs.RelationDeclarationsLines | library/compiler/src/jvmMain/kotlin/com/attafitamim/kabin/compiler/sql/generator/dao/DaoGenerator.kt:246-267 | on success there is one line per relation, in order; the k-th declares the k-th relation's property, keyed by the first matching column's property reached through the prefix |
| DaoProofs.CompoundMappingSucceeds | library/compiler/src/jvmMain/kotlin/com/attafitamim/kabin/compiler/sql/generator/dao/DaoGenerator.kt:223-331 | specifies `DaoGenerator.CompoundMapping` (`addCompoundMappingLogic`): compound assembly succeeds iff the compound is rooted on an entity whose columns key all its relations, or on an accepted sub-compound whose main property is an entity keying the relations whenever there are any |
| DaoProofs.CompoundMappingFailure | library/compiler/src/jvmMain/kotlin/com/attafitamim/kabin/compiler/sql/generator/dao/DaoGenerator.kt:234-313 | a compound rooted on a class, collection or stream fails with `UnsupportedCompoundRoot`. On an entity root, the error is the first unwired relation's. On a compound root, a rejected sub-compound's own error comes first. Then `SubCompoundNotEntity` when there are relations and the sub-compound's main property is not an entity. Then the first unwired relation's error, against the sub-compound's entity |
| DaoProofs.CompoundMappingStatements | library/compiler/src/jvmMain/kotlin/com/attafitamim/kabin/compiler/sql/generator/dao/DaoGenerator.kt:245-330 | an assembly is statements only; the constructor receives the main property followed by the relation properties in declaration order; the last line is the constructor call, bound to the parent name when nested in a compound |
| DaoProofs.EntityRootedMapping | library/compiler/src/jvmMain/kotlin/com/attafitamim/kabin/compiler/sql/generator/dao/DaoGenerator.kt:235-268 | an entity-rooted assembly declares the main property first unless nested in a `.map` block; then one line per relation keyed through `main.`; then the constructor |
| DaoProofs.CompoundRootedMapping | library/compiler/src/jvmMain/kotlin/com/attafitamim/kabin/compiler/sql/generator/dao/DaoGenerator.kt:270-309 | a compound-rooted assembly starts with the sub-compound's assembly, whose queries are named `<fn><Main>` and whose last line binds `val <main> = `; then the relation lines, keyed through `main.<subMain>.` |
| DaoProofs.MapOpenShape | library/compiler/src/jvmMain/kotlin/com/attafitamim/kabin/compiler/sql/generator/dao/DaoGenerator.kt:350-372 | specifies `DaoGenerator.MapOpen` (`addCompoundPropertyMapping`): the outermost block is `return queries.<fn><Main>(<params>).<accessor>()` followed directly by `.map { <main> -> `; an inner block is `<main>.map { <main> -> `; so every block binds the lambda parameter `<main>`, which the inner blocks and the assembly read |
| DaoProofs.CompoundReturnSucceeds | library/compiler/src/jvmMain/kotlin/com/attafitamim/kabin/compiler/sql/generator/dao/DaoGenerator.kt:179-221 | specifies `DaoGenerator.CompoundReturnLogic` (`addCompoundReturnLogic`): the compound path succeeds iff every wrapper layer has an accessor, the layers end at a compound rather than an entity or class, and the compound is accepted |
| DaoProofs.CompoundReturnFailure | library/compiler/src/jvmMain/kotlin/com/attafitamim/kabin/compiler/sql/generator/dao/DaoGenerator.kt:179-221 | the compound path fails at its outermost point of failure. The first wrapper layer without an accessor gives `NestedStreams`. Layers that all have accessors but end at an entity or class give `UnsupportedReturnRoot`. Layers that end at a compound the assembler rejects give the assembly's own error |
| DaoProofs.CompoundReturnBlocks | library/compiler/src/jvmMain/kotlin/com/attafitamim/kabin/compiler/sql/generator/dao/DaoGenerator.kt:179-221 | the compound path opens exactly one block per wrapper layer and closes every block it opens |
| DaoProofs.CompoundReturnOpens | library/compiler/src/jvmMain/kotlin/com/attafitamim/kabin/compiler/sql/generator/dao/DaoGenerator.kt:187-207 | the first lines open the layers' `.map` blocks, outermost first, each with its own layer's accessor; only the outermost, at top level, is not nested |
| DaoProofs.CompoundReturnBody | library/compiler/src/jvmMain/kotlin/com/attafitamim/kabin/compiler/sql/generator/dao/DaoGenerator.kt:187-216 | inside the blocks sits the compound's assembly, marked nested as soon as there is a block, followed by one closing per block |
| DaoProofs.ArgumentsAreParameters | library/compiler/src/jvmMain/kotlin/com/attafitamim/kabin/compiler/sql/generator/dao/DaoGenerator.kt:120-122 | the argument list splits back into the parameter names, in order |
| DaoProofs.QueryLogicCorrect | library/compiler/src/jvmMain/kotlin/com/attafitamim/kabin/compiler/sql/generator/dao/DaoGenerator.kt:114-143 | specifies `DaoGenerator.QueryLogic` (`addQueryLogic`): a function's query logic is generated iff its return chain and compound are accepted (compound path) or its return type has an accessor (passthrough); it is then balanced, with one block per wrapper layer on the compound path and none on the passthrough |
| DaoProofs.FunctionBodyShape | library/compiler/src/jvmMain/kotlin/com/attafitamim/kabin/compiler/sql/generator/dao/DaoGenerator.kt:76-96 | specifies `DaoGenerator.FunctionBody` (one iteration of the function loop in `generate`): a transactional body is the query logic between `return transactionWithResult` (when there is a return type) or `transaction` and one closing; any other body is the query logic alone; every body is balanced |
| DaoProofs.FunctionBodiesCorrect | library/compiler/src/jvmMain/kotlin/com/attafitamim/kabin/compiler/sql/generator/dao/DaoGenerator.kt:76-104 | specifies `DaoGenerator.FunctionBodies` (the function loop in `generate`): bodies are generated iff each function's is; there is then one per declared function, in order, under the function's name |
| DaoProofs.FunctionBodiesFirstFailure | library/compiler/src/jvmMain/kotlin/com/attafitamim/kabin/compiler/sql/generator/dao/DaoGenerator.kt:76-104 | a failure is the error of the first function that cannot be generated; every earlier function can be |
| DaoProofs.GenerateDaoCorrect | library/compiler/src/jvmMain/kotlin/com/attafitamim/kabin/compiler/sql/generator/dao/DaoGenerator.kt:37-112 | specifies `DaoGenerator.GenerateDao` (`generate`): a DAO is generated iff every function's query logic is valid; the class is named after the DAO plus the suffix and holds one balanced body per declared function, in order; otherwise the error is the first invalid function's |
| Code.SplitJoinParams | library/compiler/src/jvmMain/kotlin/com/attafitamim/kabin/compiler/sql/generator/dao/DaoGenerator.kt:120-122 | names without commas, joined with `", "`, split back into the same names |

## Left out

- KotlinPoet and KSP plumbing is not modelled: type, function and property specs, file
  writing, constructor and superinterface declarations, and imports. The model keeps only the
  statement lines and the names the properties speak about.
- The queries-class name (`DAO_QUERIES_SUFFIX`) and the generator's options object are not
  modelled; the DAO suffix is a parameter.
- The helpers are uninterpreted, so no property depends on what they compute: `toPascalCase`,
  `typeInitializer`, `getDataReturnType`, `getAdapterReference`, `sqlType`, adapter property
  naming and class-name rendering.
- `getDataReturnType` is an arbitrary function, so the model does not assume that it strips
  exactly the wrapper layers.
- `supportedAffinity` is declared but not read by the modelled functions. It is kept as a
  constant table, against which `EntityMapper.GetParseFunction` is stated.
- Indices are unbounded naturals. The source's 32-bit `Int` cursor position cannot
  overflow for any entity the compiler could process, so wrap-around is not modelled.
- `IsBlank` counts as blank exactly the ASCII characters Kotlin's `isWhitespace` accepts:
  space, tab, line feed, vertical tab, form feed, carriage return and U+001C to U+001F.
  Kotlin's `isBlank` also counts the non-ASCII Unicode space characters.
- The logger's diagnostic location for nested streams is not modelled; only the failure is.
- Cyclic compounds cannot be represented, because the specification tree is an inductive
  datatype.
- A column's Kotlin declaration type (used by parsing) and its type spec's declaration (used
  by decoding) are modelled as one field.
- `SYMBOL_ACCESS_SIGN` is not part of this model; it is taken to be `"."`.
- The position of the `%T` substitution in `typeInitializer`'s output is folded into the
  helper: the class name is passed to it.
- DaoGenerator.AwaitFunction: the source throws through the logger rather than `error`. The
  model does not distinguish the two exception kinds.
- EntityMapper.Leaves: its contract says only that the depth-first order holds plain columns.
  What the order contains is stated by the lemmas that relate it to the two passes.
- EntityMapper.ColumnInitialization: its own contract says only when the argument list is
  empty. The arguments are stated by `EntityProofs.InitArgumentsFollowLeaves`; the nested
  literals, one per embedded group, by `EntityProofs.InitOpensFollowGroups` and
  `EntityProofs.GroupLiteralAt`.

## Findings

| source | as written | input that shows it | evidently intended | confidence | as-written member | corrected member |
|---|---|---|---|---|---|---|
| library/compiler/src/jvmMain/kotlin/com/attafitamim/kabin/compiler/sql/utils/poet/entity/PoetEntityUtils.kt:114 | after an embedded group, the cursor position advances by the group's number of direct columns | an entity with an embedded `a` holding an embedded `b` of two columns `x`, `y`, then a plain column `c`: `aby` and `c` are both read from position 1 | advance by the number of stored columns the group's recursive parse consumed, so that every stored column is read from its own position 0, 1, 2, ... | not executed | EntityMapper.ParseColumnsAsWritten, EntityMapper.EntityParseFunctionAsWritten, EntityProofs.NestedEmbeddingReusesIndex, EntityProofs.NestedEmbeddingMapper | EntityMapper.ParseColumns, EntityMapper.ParseColumnsCorrect, EntityMapper.EntityParseFunction, EntityProofs.ParseAndInitAgree |

=== FILE: code.dfy ===
/** The emitted code, as the sequence of calls a generator makes on a code-block builder:
    `addStatement` becomes `Stmt`, `beginControlFlow` becomes `Begin`, `endControlFlow`
    becomes `End`. Also the small string utilities the generators share. */
module Code {
  import opened Wrappers

  datatype Line = Stmt(text: string) | Begin(text: string) | End

  /** Walks `lines` from nesting depth `depth`; `None` when an `End` closes a block
      that was never opened, otherwise the depth reached at the end. */
  function Scan(lines: seq<Line>, depth: nat): Option<nat>
  {
    if |lines| == 0 then Some(depth)
    else match lines[0]
      case Stmt(_) => Scan(lines[1..], depth)
      case Begin(_) => Scan(lines[1..], depth + 1)
      case End => if depth == 0 then None else Scan(lines[1..], depth - 1)
  }

  /** Every opened control-flow block is closed, and nothing is closed before it is opened. */
  predicate Balanced(lines: seq<Line>) {
    Scan(lines, 0) == Some(0)
  }

  /** Number of control-flow blocks opened. */
  function CountBegins(lines: seq<Line>): nat
  {
    if |lines| == 0 then 0 else (if lines[0].Begin? then 1 else 0) + CountBegins(lines[1..])
  }

  function Repeat<T>(n: nat, x: T): (r: seq<T>)
    ensures |r| == n
    ensures forall i :: 0 <= i < n ==> r[i] == x
  {
    if n == 0 then [] else [x] + Repeat(n - 1, x)
  }

  lemma {:induction false} ScanAppend(a: seq<Line>, b: seq<Line>, d: nat)
    ensures Scan(a + b, d) == (match Scan(a, d) case None => None case Some(e) => Scan(b, e))
    decreases |a|
  {
    if |a| == 0 {
      assert a + b == b;
    } else {
      assert (a + b)[1..] == a[1..] + b;
      match a[0]
      case Stmt(_) => ScanAppend(a[1..], b, d);
      case Begin(_) => ScanAppend(a[1..], b, d + 1);
      case End => if d > 0 { ScanAppend(a[1..], b, d - 1); }
    }
  }

  /** Starting one level deeper shifts the whole walk by one level. */
  lemma {:induction false} ScanShift(a: seq<Line>, d: nat, e: nat)
    requires Scan(a, d) == Some(e)
    ensures Scan(a, d + 1) == Some(e + 1)
    decreases |a|
  {
    if |a| > 0 {
      match a[0]
      case Stmt(_) => ScanShift(a[1..], d, e);
      case Begin(_) => ScanShift(a[1..], d + 1, e);
      case End => ScanShift(a[1..], d - 1, e);
    }
  }

  lemma BalancedConcat(a: seq<Line>, b: seq<Line>)
    requires Balanced(a) && Balanced(b)
    ensures Balanced(a + b)
  {
    ScanAppend(a, b, 0);
  }

  /** Opening a block, emitting a balanced body and closing the block is balanced. */
  lemma BalancedWrap(open: Line, body: seq<Line>)
    requires open.Begin? && Balanced(body)
    ensures Balanced([open] + body + [End])
  {
    ScanShift(body, 0, 0);
    ScanAppend([open], body, 0);
    ScanAppend([open] + body, [End], 0);
  }

  lemma {:induction false} StatementsBalanced(lines: seq<Line>)
    requires forall i :: 0 <= i < |lines| ==> lines[i].Stmt?
    ensures Balanced(lines)
    ensures CountBegins(lines) == 0
    decreases |lines|
  {
    if |lines| > 0 {
      StatementsBalanced(lines[1..]);
    }
  }

  lemma {:induction false} CountBeginsAppend(a: seq<Line>, b: seq<Line>)
    ensures CountBegins(a + b) == CountBegins(a) + CountBegins(b)
    decreases |a|
  {
    if |a| == 0 {
      assert a + b == b;
    } else {
      assert (a + b)[1..] == a[1..] + b;
      CountBeginsAppend(a[1..], b);
    }
  }

  /** `s` starts with `p`. */
  predicate HasPrefix(s: string, p: string) {
    |p| <= |s| && s[..|p|] == p
  }

  /** `s` ends with `p`. */
  predicate HasSuffix(s: string, p: string) {
    |p| <= |s| && s[|s| - |p|..] == p
  }

  /** A concatenation starts with its first part and ends with its second. */
  lemma ConcatAffixes(a: string, b: string)
    ensures HasPrefix(a + b, a) && HasSuffix(a + b, b)
  {
    assert (a + b)[..|a|] == a;
    assert (a + b)[|a + b| - |b|..] == b;
  }

  /** The ASCII characters Kotlin's `isWhitespace` accepts: space, the C `isspace` controls,
      and the four separators U+001C to U+001F. */
  predicate IsWhitespace(c: char) {
    || c == ' ' || c == '\t' || c == '\n' || c == '\r' || c == '\U{000B}' || c == '\U{000C}'
    || '\U{001C}' <= c <= '\U{001F}'
  }

  /** Kotlin's `isBlank`: empty or whitespace only. */
  predicate IsBlank(s: string) {
    forall i :: 0 <= i < |s| ==> IsWhitespace(s[i])
  }

  /** Kotlin's `isNullOrBlank` on a `String?`. */
  predicate IsNullOrBlank(s: Option<string>) {
    s.None? || IsBlank(s.value)
  }

  const Separator := ", "

  /** Kotlin's `joinToString()` with its default separator `", "`. */
  function JoinParams(names: seq<string>): string
  {
    if |names| == 0 then ""
    else if |names| == 1 then names[0]
    else names[0] + Separator + JoinParams(names[1..])
  }

  /** Position of the first comma in `s`, or `|s|` when there is none. */
  function FirstComma(s: string): (i: nat)
    ensures i <= |s|
    ensures i < |s| ==> s[i] == ','
    ensures forall j :: 0 <= j < i ==> s[j] != ','
  {
    if |s| == 0 then 0
    else if s[0] == ',' then 0
    else 1 + FirstComma(s[1..])
  }

  /** Splits an argument list written by `JoinParams` back into its names. */
  function SplitParams(s: string): seq<string>
    decreases |s|
  {
    var i := FirstComma(s);
    if |s| == 0 then []
    else if i + 2 <= |s| then [s[..i]] + SplitParams(s[i + 2..])
    else [s[..i]]
  }

  /** A name that can appear in an argument list without being confused with the separator. */
  predicate PlainName(n: string) {
    |n| > 0 && forall j :: 0 <= j < |n| ==> n[j] != ','
  }

  lemma FirstCommaAfter(a: string, b: string)
    requires forall j :: 0 <= j < |a| ==> a[j] != ','
    requires |b| > 0 && b[0] == ','
    ensures FirstComma(a + b) == |a|
  {
    assert (a + b)[|a|] == ',';
    assert forall j :: 0 <= j < |a| ==> (a + b)[j] == a[j];
  }

  lemma FirstCommaNone(a: string)
    requires forall j :: 0 <= j < |a| ==> a[j] != ','
    ensures FirstComma(a) == |a|
  {
  }

  /** The argument list is the parameter names in order: splitting it recovers them. */
  lemma {:induction false} SplitJoinParams(names: seq<string>)
    requires forall k :: 0 <= k < |names| ==> PlainName(names[k])
    ensures SplitParams(JoinParams(names)) == names
    decreases |names|
  {
    if |names| == 1 {
      FirstCommaNone(names[0]);
      assert names[0][..|names[0]|] == names[0];
    } else if |names| > 1 {
      var s := JoinParams(names);
      var rest := JoinParams(names[1..]);
      assert s == names[0] + (Separator + rest);
      FirstCommaAfter(names[0], Separator + rest);
      assert s[..|names[0]|] == names[0];
      assert s[|names[0]| + 2..] == rest;
      SplitJoinParams(names[1..]);
    }
  }

  /** Decimal rendering of a non-negative integer, as Kotlin's string template writes it. */
  function DecimalString(n: nat): string
  {
    if n < 10 then [Digit(n)] else DecimalString(n / 10) + [Digit(n % 10)]
  }

  function Digit(d: nat): char
    requires d < 10
  {
    "0123456789"[d]
  }
}

=== FILE: dao_generator.dfy ===
/** The generated implementation of one DAO interface: for every declared function, a body
    that either forwards to the generated queries object (or to the interface's default
    implementation) or assembles a compound result from one query per property, wrapped in
    one `.map { ... }` block per collection or stream layer and optionally in a transaction. */
module DaoGenerator {
  import opened Wrappers
  import opened Code
  import opened Specs

  /** The name of `KabinDao.queries`, the property through which the passthrough reaches its
      query; the compound path writes the same name literally. */
  const QueriesProperty := "queries"

  /** The separator between a receiver and a member in a generated access path. */
  const AccessSign := "."

  const AwaitAsOneOrNull := "awaitAsOneOrNullIO"
  const AwaitAsOneNotNull := "awaitAsOneNotNullIO"
  const AwaitAsList := "awaitAsListIO"
  const AsFlowList := "asFlowIOList"
  const AsFlowNullable := "asFlowIONullable"
  const AsFlowNotNull := "asFlowIONotNull"

  /** Every terminal accessor a generated query call can end in. */
  const AwaitFunctions: set<string> :=
    {AwaitAsOneOrNull, AwaitAsOneNotNull, AwaitAsList, AsFlowList, AsFlowNullable, AsFlowNotNull}

  /** The accessor that turns a query into a value of the declared shape: a single row, a list
      of rows, or a flow of either. A stream of streams has none. */
  function AwaitFunction(t: DataTypeSpec): (r: Result<string, GenError>)
    ensures r.Failure? <==> t.dataType.Stream? && t.dataType.wrapped.dataType.Stream?
    ensures r.Failure? ==> r.error == NestedStreams
    ensures r.Success? ==> r.value in AwaitFunctions
  {
    match t.dataType
    case Collection(_) => Success(AwaitAsList)
    case Stream(wrapped) =>
      if wrapped.dataType.Collection? then Success(AsFlowList)
      else if wrapped.dataType.Stream? then Failure(NestedStreams)
      else Success(if wrapped.isNullable then AsFlowNullable else AsFlowNotNull)
    case _ => Success(if t.isNullable then AwaitAsOneOrNull else AwaitAsOneNotNull)
  }

  /** `returnType?.getAwaitFunction()`: no accessor without a return type. */
  function ReturnAwait(returnType: Option<DataTypeSpec>): (r: Result<Option<string>, GenError>)
    ensures returnType.None? ==> r == Success(None)
    ensures returnType.Some? ==> r.Success? == AwaitFunction(returnType.value).Success?
    ensures returnType.Some? && AwaitFunction(returnType.value).Success? ==>
      r == Success(Some(AwaitFunction(returnType.value).value))
    ensures returnType.Some? && AwaitFunction(returnType.value).Failure? ==>
      r == Failure(AwaitFunction(returnType.value).error)
  {
    if returnType.None? then Success(None)
    else
      var await :- AwaitFunction(returnType.value);
      Success(Some(await))
  }

  /** The passthrough body: one statement calling the query of the same name (through its
      accessor when the function returns something) or, for a function without an action, the
      interface's own implementation. The value is returned directly unless a transaction
      block returns it. */
  function SimpleReturnLogic(fn: DaoFunctionSpec, params: string): Result<Line, GenError>
  {
    var await :- ReturnAwait(fn.returnTypeSpec);
    var functionCall :=
      if fn.actionSpec.Some? then
        if IsNullOrBlank(await) then QueriesProperty + "." + fn.name + "(" + params + ")"
        else QueriesProperty + "." + fn.name + "(" + params + ")" + "." + await.value + "()"
      else "super." + fn.name + "(" + params + ")";
    Success(Stmt(if fn.returnTypeSpec.Some? && fn.transactionSpec.None? then "return " + functionCall else functionCall))
  }

  /** The statement declaring one compound property from its own query:
      `val p = queries.<fn><P>(<params>).<await>()`. */
  function PropertyDeclaration(h: Helpers, fn: string, params: string, property: CompoundPropertySpec): Result<Line, GenError>
  {
    var await :- AwaitFunction(property.dataTypeSpec);
    Success(Stmt("val " + property.name + " = "
                 + "queries." + fn + h.toPascalCase(property.name) + "(" + params + ")" + "." + await + "()"))
  }

  /** The first column whose SQL name is `name`. */
  function FindColumn(cols: seq<ColumnSpec>, name: string): (r: Option<ColumnSpec>)
    ensures r.None? <==> forall k :: 0 <= k < |cols| ==> cols[k].name != name
    ensures r.Some? ==> exists k :: 0 <= k < |cols| && cols[k] == r.value && r.value.name == name
                                   && forall j :: 0 <= j < k ==> cols[j].name != name
  {
    if |cols| == 0 then None
    else if cols[0].name == name then Some(cols[0])
    else
      var r := FindColumn(cols[1..], name);
      if r.Some? then
        ghost var k :| 0 <= k < |cols[1..]| && cols[1..][k] == r.value && r.value.name == name
                       && forall j :: 0 <= j < k ==> cols[1..][j].name != name;
        assert cols[k + 1] == r.value;
        r
      else r
  }

  /** One declaration per relation, in order: the query keyed by the parent column's property,
      reached through `prefix` (the path to the entity holding the column). */
  function RelationDeclarations(h: Helpers, fn: string, prefix: string, cols: seq<ColumnSpec>, relations: seq<RelationSpec>): Result<seq<Line>, GenError>
  {
    if |relations| == 0 then Success([])
    else
      var relation := relations[0];
      var column := FindColumn(cols, relation.parentColumn);
      if column.None? then Failure(UnresolvedColumn(relation.parentColumn))
      else
        var line :- PropertyDeclaration(h, fn, prefix + column.value.propertyName, relation.property);
        var rest :- RelationDeclarations(h, fn, prefix, cols, relations[1..]);
        Success([line] + rest)
  }

  function RelationNames(relations: seq<RelationSpec>): (r: seq<string>)
    ensures |r| == |relations|
    ensures forall k :: 0 <= k < |r| ==> r[k] == relations[k].property.name
  {
    seq(|relations|, k requires 0 <= k < |relations| => relations[k].property.name)
  }

  /** The statements assembling one compound value, and the properties passed to its
      constructor. */
  datatype Mapping = Mapping(lines: seq<Line>, added: seq<string>)

  /** Declares the compound's main property (unless a surrounding `.map` block already binds
      it) and one property per relation, then builds the compound from them. A compound whose
      main property is itself a compound is built first, under the main property's name. */
  function CompoundMapping(h: Helpers, fn: string, params: string, c: CompoundSpec, nested: bool, parent: Option<string>): Result<Mapping, GenError>
    decreases c
  {
    var main := c.mainProperty;
    var body :- (
      match main.dataTypeSpec.dataType
      case Entity(entity) =>
        var mainLines :- (if nested then Success([]) else
                           var l :- PropertyDeclaration(h, fn, params, main); Success([l]));
        var relationLines :- RelationDeclarations(h, fn, main.name + AccessSign, entity.columns, c.relations);
        Success(mainLines + relationLines)
      case Compound(sub) =>
        var inner :- CompoundMapping(h, fn + h.toPascalCase(main.name), params, sub, nested, Some(main.name));
        var subMain := sub.mainProperty;
        if |c.relations| > 0 && !subMain.dataTypeSpec.dataType.Entity? then Failure(SubCompoundNotEntity)
        else
          var cols := if subMain.dataTypeSpec.dataType.Entity? then subMain.dataTypeSpec.dataType.entity.columns else [];
          var relationLines :- RelationDeclarations(h, fn, main.name + AccessSign + subMain.name + AccessSign, cols, c.relations);
          Success(inner.lines + relationLines)
      case _ => Failure(UnsupportedCompoundRoot));
    var added := [main.name] + RelationNames(c.relations);
    var initializer := h.typeInitializer(h.className(c.declaration), added, !nested && IsNullOrBlank(parent));
    var last := if !IsNullOrBlank(parent) then "val " + parent.value + " = " + initializer else initializer;
    Success(Mapping(body + [Stmt(last)], added))
  }

  /** The opening of one `.map` block over the main property: the outermost one returns the
      main query's result, inner ones map the lambda parameter of the enclosing block. */
  function MapOpen(h: Helpers, fn: string, params: string, main: CompoundPropertySpec, await: string, nested: bool): Line
  {
    var functionCall :=
      if nested then main.name
      else "return queries." + fn + h.toPascalCase(main.name) + "(" + params + ")" + "." + await + "()";
    Begin(functionCall + ".map { " + main.name + " -> ")
  }

  /** The compound path: one `.map` block per wrapper layer of the declared return type, the
      compound assembled inside the innermost one. */
  function CompoundReturnLogic(h: Helpers, fn: string, params: string, returnType: DataTypeSpec, c: CompoundSpec, nested: bool): Result<seq<Line>, GenError>
    decreases returnType
  {
    if returnType.dataType.IsWrapper() then
      var await :- AwaitFunction(returnType);
      var inner :- CompoundReturnLogic(h, fn, params, returnType.dataType.wrapped, c, true);
      Success([MapOpen(h, fn, params, c.mainProperty, await, nested)] + inner + [End])
    else if returnType.dataType.Compound? then
      var mapping :- CompoundMapping(h, fn, params, c, nested, None);
      Success(mapping.lines)
    else Failure(UnsupportedReturnRoot)
  }

  /** The data type beneath the declared return type's wrappers, when that is a compound. */
  predicate ReturnsCompound(h: Helpers, fn: DaoFunctionSpec) {
    fn.returnTypeSpec.Some? && h.getDataReturnType(fn.returnTypeSpec.value).dataType.Compound?
  }

  /** The query logic of one function: the compound path when it returns a compound, else the
      passthrough, with the parameter names as arguments. */
  function QueryLogic(h: Helpers, fn: DaoFunctionSpec): Result<seq<Line>, GenError>
  {
    var params := JoinParams(fn.parameters);
    if ReturnsCompound(h, fn) then
      CompoundReturnLogic(h, fn.name, params, fn.returnTypeSpec.value,
                          h.getDataReturnType(fn.returnTypeSpec.value).dataType.compound, false)
    else
      var line :- SimpleReturnLogic(fn, params);
      Success([line])
  }

  function TransactionOpen(fn: DaoFunctionSpec): Line
  {
    Begin(if fn.returnTypeSpec.Some? then "return transactionWithResult" else "transaction")
  }

  /** The whole body of one function: the query logic, inside a transaction block when the
      function is transactional. */
  function FunctionBody(h: Helpers, fn: DaoFunctionSpec): Result<seq<Line>, GenError>
  {
    var body :- QueryLogic(h, fn);
    if fn.transactionSpec.Some? then Success([TransactionOpen(fn)] + body + [End])
    else Success(body)
  }

  datatype GeneratedFunction = GeneratedFunction(name: string, body: seq<Line>)

  /** The generated class: its name and one overriding function per declared function. */
  datatype DaoUnit = DaoUnit(className: string, functions: seq<GeneratedFunction>)

  function FunctionBodies(h: Helpers, fns: seq<DaoFunctionSpec>): Result<seq<GeneratedFunction>, GenError>
  {
    if |fns| == 0 then Success([])
    else
      var body :- FunctionBody(h, fns[0]);
      var rest :- FunctionBodies(h, fns[1..]);
      Success([GeneratedFunction(fns[0].name, body)] + rest)
  }

  /** The implementation class of `dao`, named with the configured suffix. */
  function GenerateDao(h: Helpers, dao: DaoSpec, suffix: string): Result<DaoUnit, GenError>
  {
    var functions :- FunctionBodies(h, dao.functionSpecs);
    Success(DaoUnit(dao.name + suffix, functions))
  }
}

=== FILE: dao_proofs.dfy ===
/** Properties of the DAO body generator: the accessor names encode the declared result shape,
    the passthrough statement forwards to the right callee with the right prefix, compound
    assembly succeeds exactly on well-wired compounds, every opened block is closed, and a
    DAO is generated exactly when each of its functions is. */
module DaoProofs {
  import opened Wrappers
  import opened Code
  import opened Specs
  import opened DaoGenerator

  // ---------------------------------------------------------------------------------------
  // Accessors

  /** How a query result is observed: once or as a live flow, as one row or a list of rows,
      and whether a missing row is allowed. */
  datatype Access = Access(reactive: bool, list: bool, nullable: bool)

  /** The way a declared result type is observed, read off its shape; a stream of streams has
      none. */
  function DeclaredAccess(t: DataTypeSpec): Option<Access>
  {
    if t.dataType.Collection? then Some(Access(false, true, false))
    else if t.dataType.Stream? then
      var w := t.dataType.wrapped;
      if w.dataType.Stream? then None
      else if w.dataType.Collection? then Some(Access(true, true, false))
      else Some(Access(true, false, w.isNullable))
    else Some(Access(false, false, t.isNullable))
  }

  /** What each accessor name promises. */
  const AccessOf: map<string, Access> := map[
    AwaitAsOneOrNull := Access(false, false, true),
    AwaitAsOneNotNull := Access(false, false, false),
    AwaitAsList := Access(false, true, false),
    AsFlowList := Access(true, true, false),
    AsFlowNullable := Access(true, false, true),
    AsFlowNotNull := Access(true, false, false)
  ]

  /** The accessor chosen for a result type promises exactly the way the type is observed,
      and one exists exactly when the type is not a stream of streams. */
  lemma AwaitFunctionAccess(t: DataTypeSpec)
    ensures AwaitFunction(t).Success? <==> DeclaredAccess(t).Some?
    ensures AwaitFunction(t).Success? ==>
      AwaitFunction(t).value in AccessOf && AccessOf[AwaitFunction(t).value] == DeclaredAccess(t).value
  {
  }

  /** Distinct accessor names promise distinct observations, so the name determines the shape. */
  lemma AccessOfInjective(a: string, b: string)
    requires a in AccessOf && b in AccessOf && AccessOf[a] == AccessOf[b]
    ensures a == b
  {
  }

  /** Exactly the reactive accessors are the `asFlow` ones. */
  lemma ReactiveAccessors(t: DataTypeSpec)
    requires AwaitFunction(t).Success?
    ensures HasPrefix(AwaitFunction(t).value, "asFlow") <==> t.dataType.Stream?
  {
    var r := AwaitFunction(t).value;
    if t.dataType.Stream? {
      assert r[..6] == "asFlow";
    } else {
      assert r[1] == 'w';
    }
  }

  lemma AwaitNotBlank(a: string)
    requires a in AwaitFunctions
    ensures !IsBlank(a)
  {
    assert a[0] == 'a';
  }

  // ---------------------------------------------------------------------------------------
  // The passthrough path

  /** The statement without its leading `return `, if it has one. */
  function Unreturned(text: string): string
  {
    if HasPrefix(text, "return ") then text[7..] else text
  }

  /** The callee part of a passthrough statement, as the source's templates write it. */
  function Callee(fn: DaoFunctionSpec, params: string, await: string): string
  {
    var query := QueriesProperty + "." + fn.name + "(" + params + ")";
    if fn.actionSpec.None? then "super." + fn.name + "(" + params + ")"
    else if fn.returnTypeSpec.None? then query
    else query + "." + await + "()"
  }

  /** The accessor of a return type that has one, or nothing. */
  function AwaitOrEmpty(fn: DaoFunctionSpec): string
  {
    if fn.returnTypeSpec.Some? && AwaitFunction(fn.returnTypeSpec.value).Success? then AwaitFunction(fn.returnTypeSpec.value).value
    else ""
  }

  lemma SimpleReturnText(fn: DaoFunctionSpec, params: string)
    ensures var r := SimpleReturnLogic(fn, params);
      r.Success? <==> fn.returnTypeSpec.None? || AwaitFunction(fn.returnTypeSpec.value).Success?
    ensures var r := SimpleReturnLogic(fn, params);
      var call := Callee(fn, params, AwaitOrEmpty(fn));
      r.Success? ==>
        r.value == Stmt(if fn.returnTypeSpec.Some? && fn.transactionSpec.None? then "return " + call else call)
  {
    if fn.returnTypeSpec.Some? && AwaitFunction(fn.returnTypeSpec.value).Success? {
      AwaitNotBlank(AwaitFunction(fn.returnTypeSpec.value).value);
    }
  }

  lemma ReturnPrefix(call: string)
    requires |call| > 0 && call[0] != 'r'
    ensures HasPrefix("return " + call, "return ") && Unreturned("return " + call) == call
    ensures !HasPrefix(call, "return ") && Unreturned(call) == call
  {
    assert ("return " + call)[..7] == "return ";
    assert ("return " + call)[7..] == call;
  }

  /** The passthrough statement fails only on a stream of streams, and returns the value itself
      exactly when there is a return type and no transaction block. */
  lemma SimpleReturnPrefix(fn: DaoFunctionSpec, params: string)
    ensures var r := SimpleReturnLogic(fn, params);
      r.Success? <==> fn.returnTypeSpec.None? || AwaitFunction(fn.returnTypeSpec.value).Success?
    ensures var r := SimpleReturnLogic(fn, params);
      r.Success? ==>
        && r.value.Stmt?
        && (HasPrefix(r.value.text, "return ") <==> fn.returnTypeSpec.Some? && fn.transactionSpec.None?)
        && Unreturned(r.value.text) == Callee(fn, params, AwaitOrEmpty(fn))
  {
    SimpleReturnText(fn, params);
    var call := Callee(fn, params, AwaitOrEmpty(fn));
    assert call[0] != 'r';
    ReturnPrefix(call);
  }

  /** Without an action the passthrough calls the interface's own implementation; otherwise
      it calls the query of the same name with the same arguments, ending in the accessor
      exactly when there is a return type. */
  lemma CalleeShape(fn: DaoFunctionSpec, params: string, await: string)
    ensures var call := Callee(fn, params, await);
      var query := QueriesProperty + "." + fn.name + "(" + params + ")";
      && (fn.actionSpec.None? ==> call == "super." + fn.name + "(" + params + ")")
      && (fn.actionSpec.Some? ==> HasPrefix(call, query))
      && (fn.actionSpec.Some? ==> (call == query <==> fn.returnTypeSpec.None?))
      && (fn.actionSpec.Some? && fn.returnTypeSpec.Some? ==> HasSuffix(call, "." + await + "()"))
  {
    var call := Callee(fn, params, await);
    var query := QueriesProperty + "." + fn.name + "(" + params + ")";
    if fn.actionSpec.Some? {
      assert call[..|query|] == query;
      if fn.returnTypeSpec.Some? {
        var tail := "." + await + "()";
        assert call == query + tail;
        assert call[|call| - |tail|..] == tail;
      }
    }
  }

  // ---------------------------------------------------------------------------------------
  // Compound assembly

  /** A property whose query has an accessor. */
  predicate Observable(t: DataTypeSpec) {
    DeclaredAccess(t).Some?
  }

  predicate HasColumn(cols: seq<ColumnSpec>, name: string) {
    exists k :: 0 <= k < |cols| && cols[k].name == name
  }

  /** A relation that names a column of the entity and has an observable property. */
  predicate RelationWired(cols: seq<ColumnSpec>, relation: RelationSpec) {
    HasColumn(cols, relation.parentColumn) && Observable(relation.property.dataTypeSpec)
  }

  /** Every relation is wired. */
  predicate RelationsWired(cols: seq<ColumnSpec>, relations: seq<RelationSpec>) {
    forall k :: 0 <= k < |relations| ==> RelationWired(cols, relations[k])
  }

  /** The k-th relation is the first one that is not wired. */
  predicate FirstUnwired(cols: seq<ColumnSpec>, relations: seq<RelationSpec>, k: nat) {
    k < |relations| && RelationsWired(cols, relations[..k]) && !RelationWired(cols, relations[k])
  }

  /** How a relation that is not wired is reported: by its missing parent column, or, when the
      column exists, as the stream of streams its property must then be. */
  function UnwiredError(cols: seq<ColumnSpec>, relation: RelationSpec): GenError
  {
    if HasColumn(cols, relation.parentColumn) then NestedStreams else UnresolvedColumn(relation.parentColumn)
  }

  /** A compound the assembler accepts: rooted on an entity whose columns key all its
      relations, or on a compound that is itself accepted and, when there are relations,
      whose main property is an entity keying them. */
  predicate MappingValid(c: CompoundSpec)
    decreases c
  {
    match c.mainProperty.dataTypeSpec.dataType
    case Entity(entity) => RelationsWired(entity.columns, c.relations)
    case Compound(sub) =>
      && MappingValid(sub)
      && (|c.relations| > 0 ==>
            sub.mainProperty.dataTypeSpec.dataType.Entity?
            && RelationsWired(sub.mainProperty.dataTypeSpec.dataType.entity.columns, c.relations))
    case _ => false
  }

  /** A property declaration is one statement, produced exactly when the property's type has
      an accessor. */
  lemma PropertyDeclarationStatement(h: Helpers, fn: string, params: string, property: CompoundPropertySpec)
    ensures PropertyDeclaration(h, fn, params, property).Success? <==> Observable(property.dataTypeSpec)
    ensures PropertyDeclaration(h, fn, params, property).Success? ==> PropertyDeclaration(h, fn, params, property).value.Stmt?
  {
    AwaitFunctionAccess(property.dataTypeSpec);
  }

  lemma PropertyDeclarationShape(h: Helpers, fn: string, params: string, property: CompoundPropertySpec)
    ensures PropertyDeclaration(h, fn, params, property).Success? <==> Observable(property.dataTypeSpec)
    ensures var r := PropertyDeclaration(h, fn, params, property);
      r.Success? ==>
        && r.value.Stmt?
        && HasPrefix(r.value.text, "val " + property.name + " = " + "queries." + fn + h.toPascalCase(property.name) + "(" + params + ")")
        && HasSuffix(r.value.text, "." + AwaitFunction(property.dataTypeSpec).value + "()")
        && |r.value.text| == |"val " + property.name + " = " + "queries." + fn + h.toPascalCase(property.name) + "(" + params + ")"|
                             + |"." + AwaitFunction(property.dataTypeSpec).value + "()"|
  {
    AwaitFunctionAccess(property.dataTypeSpec);
    var r := PropertyDeclaration(h, fn, params, property);
    if r.Success? {
      var await := AwaitFunction(property.dataTypeSpec).value;
      var head := "val " + property.name + " = " + "queries." + fn + h.toPascalCase(property.name) + "(" + params + ")";
      assert r.value.text == head + "." + await + "()";
      ConcatAffixes(head, "." + await + "()");
      assert head + "." + await + "()" == head + ("." + await + "()");
    }
  }

  lemma RelationsWiredCons(cols: seq<ColumnSpec>, relations: seq<RelationSpec>)
    requires |relations| > 0
    ensures RelationsWired(cols, relations) <==>
      && HasColumn(cols, relations[0].parentColumn)
      && Observable(relations[0].property.dataTypeSpec)
      && RelationsWired(cols, relations[1..])
  {
    if RelationsWired(cols, relations) {
      forall k | 0 <= k < |relations[1..]|
        ensures HasColumn(cols, relations[1..][k].parentColumn) && Observable(relations[1..][k].property.dataTypeSpec)
      {
        assert relations[1..][k] == relations[k + 1];
      }
    }
  }

  /** One relation's declaration, then the rest. */
  lemma RelationDeclarationsStep(h: Helpers, fn: string, prefix: string, cols: seq<ColumnSpec>, relations: seq<RelationSpec>)
    requires |relations| > 0
    ensures var column := FindColumn(cols, relations[0].parentColumn);
      var r := RelationDeclarations(h, fn, prefix, cols, relations);
      var rest := RelationDeclarations(h, fn, prefix, cols, relations[1..]);
      && (column.None? ==> r.Failure?)
      && (column.Some? ==>
            var line := PropertyDeclaration(h, fn, prefix + column.value.propertyName, relations[0].property);
            && (line.Failure? ==> r.Failure?)
            && (line.Success? ==> r.Success? == rest.Success?)
            && (line.Success? && rest.Success? ==> r.value == [line.value] + rest.value))
  {
  }

  lemma {:induction false} RelationDeclarationsSucceed(h: Helpers, fn: string, prefix: string, cols: seq<ColumnSpec>, relations: seq<RelationSpec>)
    ensures RelationDeclarations(h, fn, prefix, cols, relations).Success? <==> RelationsWired(cols, relations)
    decreases |relations|
  {
    if |relations| > 0 {
      var column := FindColumn(cols, relations[0].parentColumn);
      RelationDeclarationsSucceed(h, fn, prefix, cols, relations[1..]);
      RelationsWiredCons(cols, relations);
      RelationDeclarationsStep(h, fn, prefix, cols, relations);
      if column.Some? {
        PropertyDeclarationStatement(h, fn, prefix + column.value.propertyName, relations[0].property);
      }
    }
  }

  /** Some relation is the first one not wired whenever not all of them are. */
  lemma {:induction false} FirstUnwiredExists(cols: seq<ColumnSpec>, relations: seq<RelationSpec>)
    requires !RelationsWired(cols, relations)
    ensures exists k: nat :: FirstUnwired(cols, relations, k)
    decreases |relations|
  {
    if RelationWired(cols, relations[0]) {
      var tail := relations[1..];
      assert !RelationsWired(cols, tail) by {
        var k :| 0 <= k < |relations| && !RelationWired(cols, relations[k]);
        assert tail[k - 1] == relations[k];
      }
      FirstUnwiredExists(cols, tail);
      var j: nat :| FirstUnwired(cols, tail, j);
      var prefix := relations[..j + 1];
      forall i | 0 <= i < |prefix|
        ensures RelationWired(cols, prefix[i])
      {
        if i > 0 {
          assert prefix[i] == tail[..j][i - 1];
        }
      }
      assert FirstUnwired(cols, relations, j + 1);
    } else {
      assert FirstUnwired(cols, relations, 0);
    }
  }

  /** The declarations fail with the error of the k-th relation when it is the first one not
      wired. */
  lemma {:induction false} RelationDeclarationsFailAt(h: Helpers, fn: string, prefix: string, cols: seq<ColumnSpec>, relations: seq<RelationSpec>, k: nat)
    requires FirstUnwired(cols, relations, k)
    ensures RelationDeclarations(h, fn, prefix, cols, relations) == Failure(UnwiredError(cols, relations[k]))
    decreases k
  {
    var column := FindColumn(cols, relations[0].parentColumn);
    AwaitFunctionAccess(relations[0].property.dataTypeSpec);
    if k > 0 {
      var tail := relations[1..];
      var wired := relations[..k];
      var rest := tail[..k - 1];
      assert wired[0] == relations[0];
      forall i | 0 <= i < |rest|
        ensures RelationWired(cols, rest[i])
      {
        assert rest[i] == wired[i + 1];
      }
      assert tail[k - 1] == relations[k];
      RelationDeclarationsFailAt(h, fn, prefix, cols, tail, k - 1);
    }
  }

  /** Relation declarations that are not all wired fail, and fail as the first relation not
      wired does: with `UnresolvedColumn` naming its parent column when no column has that
      name, and with `NestedStreams` when the column exists but the property is a stream of
      streams. */
  lemma RelationDeclarationsFailure(h: Helpers, fn: string, prefix: string, cols: seq<ColumnSpec>, relations: seq<RelationSpec>)
    ensures !RelationsWired(cols, relations) ==> exists k: nat :: FirstUnwired(cols, relations, k)
    ensures forall k: nat :: FirstUnwired(cols, relations, k) ==>
      RelationDeclarations(h, fn, prefix, cols, relations) == Failure(UnwiredError(cols, relations[k]))
  {
    if !RelationsWired(cols, relations) {
      FirstUnwiredExists(cols, relations);
    }
    forall k: nat | FirstUnwired(cols, relations, k)
      ensures RelationDeclarations(h, fn, prefix, cols, relations) == Failure(UnwiredError(cols, relations[k]))
    {
      RelationDeclarationsFailAt(h, fn, prefix, cols, relations, k);
    }
  }

  lemma {:induction false} RelationDeclarationsLines(h: Helpers, fn: string, prefix: string, cols: seq<ColumnSpec>, relations: seq<RelationSpec>)
    ensures var r := RelationDeclarations(h, fn, prefix, cols, relations);
      r.Success? ==>
        && |r.value| == |relations|
        && forall k :: 0 <= k < |relations| ==>
             && FindColumn(cols, relations[k].parentColumn).Some?
             && PropertyDeclaration(h, fn, prefix + FindColumn(cols, relations[k].parentColumn).value.propertyName,
                                    relations[k].property).Success?
             && r.value[k] == PropertyDeclaration(h, fn, prefix + FindColumn(cols, relations[k].parentColumn).value.propertyName,
                                                  relations[k].property).value
    decreases |relations|
  {
    var r := RelationDeclarations(h, fn, prefix, cols, relations);
    if |relations| > 0 && r.Success? {
      RelationDeclarationsLines(h, fn, prefix, cols, relations[1..]);
      RelationDeclarationsStep(h, fn, prefix, cols, relations);
      var rest := RelationDeclarations(h, fn, prefix, cols, relations[1..]).value;
      forall k | 1 <= k < |relations|
        ensures r.value[k] == rest[k - 1] && relations[k] == relations[1..][k - 1]
      {
      }
    }
  }

  /** Relation declarations succeed exactly when the relations are wired; then the k-th line
      declares the k-th relation's property from its own query, keyed by the first column of
      that SQL name reached through `prefix`. */
  lemma RelationDeclarationsCorrect(h: Helpers, fn: string, prefix: string, cols: seq<ColumnSpec>, relations: seq<RelationSpec>)
    ensures RelationDeclarations(h, fn, prefix, cols, relations).Success? <==> RelationsWired(cols, relations)
    ensures var r := RelationDeclarations(h, fn, prefix, cols, relations);
      r.Success? ==>
        && |r.value| == |relations|
        && forall k :: 0 <= k < |relations| ==>
             && FindColumn(cols, relations[k].parentColumn).Some?
             && PropertyDeclaration(h, fn, prefix + FindColumn(cols, relations[k].parentColumn).value.propertyName,
                                    relations[k].property).Success?
             && r.value[k] == PropertyDeclaration(h, fn, prefix + FindColumn(cols, relations[k].parentColumn).value.propertyName,
                                                  relations[k].property).value
  {
    RelationDeclarationsSucceed(h, fn, prefix, cols, relations);
    RelationDeclarationsLines(h, fn, prefix, cols, relations);
  }

  lemma EntityIsObservable(t: DataTypeSpec)
    requires t.dataType.IsData()
    ensures Observable(t)
  {
  }

  /** Compound assembly succeeds exactly on the compounds `MappingValid` accepts. */
  lemma {:induction false} CompoundMappingSucceeds(h: Helpers, fn: string, params: string, c: CompoundSpec, nested: bool, parent: Option<string>)
    ensures CompoundMapping(h, fn, params, c, nested, parent).Success? <==> MappingValid(c)
    decreases c
  {
    var main := c.mainProperty;
    match main.dataTypeSpec.dataType {
      case Entity(entity) =>
        EntityIsObservable(main.dataTypeSpec);
        PropertyDeclarationStatement(h, fn, params, main);
        RelationDeclarationsCorrect(h, fn, main.name + AccessSign, entity.columns, c.relations);
      case Compound(sub) =>
        CompoundMappingSucceeds(h, fn + h.toPascalCase(main.name), params, sub, nested, Some(main.name));
        var subMain := sub.mainProperty;
        var cols := if subMain.dataTypeSpec.dataType.Entity? then subMain.dataTypeSpec.dataType.entity.columns else [];
        RelationDeclarationsCorrect(h, fn, main.name + AccessSign + subMain.name + AccessSign, cols, c.relations);
      case _ =>
    }
  }

  /** Compound assembly fails as the source's `addCompoundMappingLogic` does: with
      `UnsupportedCompoundRoot` on a compound rooted on neither an entity nor a compound, with
      the first unwired relation's error on an entity root, and on a compound root with the
      sub-assembly's own error, then with `SubCompoundNotEntity` when there are relations but the
      sub-compound's main property is no entity, then with the first unwired relation's error. */
  lemma CompoundMappingFailure(h: Helpers, fn: string, params: string, c: CompoundSpec, nested: bool, parent: Option<string>)
    ensures var r := CompoundMapping(h, fn, params, c, nested, parent);
      var main := c.mainProperty;
      match main.dataTypeSpec.dataType
      case Entity(entity) =>
        forall k: nat :: FirstUnwired(entity.columns, c.relations, k) ==>
          r == Failure(UnwiredError(entity.columns, c.relations[k]))
      case Compound(sub) =>
        var subRoot := sub.mainProperty.dataTypeSpec.dataType;
        && (!MappingValid(sub) ==>
              var inner := CompoundMapping(h, fn + h.toPascalCase(main.name), params, sub, nested, Some(main.name));
              inner.Failure? && r == Failure(inner.error))
        && (MappingValid(sub) && |c.relations| > 0 && !subRoot.Entity? ==> r == Failure(SubCompoundNotEntity))
        && (MappingValid(sub) && subRoot.Entity? ==>
              forall k: nat :: FirstUnwired(subRoot.entity.columns, c.relations, k) ==>
                r == Failure(UnwiredError(subRoot.entity.columns, c.relations[k])))
      case _ => r == Failure(UnsupportedCompoundRoot)
  {
    var main := c.mainProperty;
    match main.dataTypeSpec.dataType {
      case Entity(entity) =>
        EntityIsObservable(main.dataTypeSpec);
        PropertyDeclarationStatement(h, fn, params, main);
        RelationDeclarationsFailure(h, fn, main.name + AccessSign, entity.columns, c.relations);
      case Compound(sub) =>
        CompoundMappingSucceeds(h, fn + h.toPascalCase(main.name), params, sub, nested, Some(main.name));
        var subMain := sub.mainProperty;
        if subMain.dataTypeSpec.dataType.Entity? {
          RelationDeclarationsFailure(h, fn, main.name + AccessSign + subMain.name + AccessSign,
                                      subMain.dataTypeSpec.dataType.entity.columns, c.relations);
        }
      case _ =>
    }
  }

  /** The constructor statement closing an assembly: built from exactly `added`, returned when
      the assembly is the top-level, unwrapped result, and bound to `parent` when it is the
      main property of an enclosing compound. */
  function ConstructorLine(h: Helpers, c: CompoundSpec, added: seq<string>, nested: bool, parent: Option<string>): Line
  {
    var initializer := h.typeInitializer(h.className(c.declaration), added, !nested && IsNullOrBlank(parent));
    Stmt(if !IsNullOrBlank(parent) then "val " + parent.value + " = " + initializer else initializer)
  }

  /** Every relation declaration is a statement. */
  lemma RelationStatements(h: Helpers, fn: string, prefix: string, cols: seq<ColumnSpec>, relations: seq<RelationSpec>)
    ensures var r := RelationDeclarations(h, fn, prefix, cols, relations);
      r.Success? ==> forall k :: 0 <= k < |r.value| ==> r.value[k].Stmt?
  {
    RelationDeclarationsCorrect(h, fn, prefix, cols, relations);
    var r := RelationDeclarations(h, fn, prefix, cols, relations);
    if r.Success? {
      forall k | 0 <= k < |r.value| ensures r.value[k].Stmt? {
        PropertyDeclarationStatement(h, fn, prefix + FindColumn(cols, relations[k].parentColumn).value.propertyName, relations[k].property);
      }
    }
  }

  /** Statements followed by statements are statements. */
  lemma StatementsConcat(a: seq<Line>, b: seq<Line>)
    requires forall k :: 0 <= k < |a| ==> a[k].Stmt?
    requires forall k :: 0 <= k < |b| ==> b[k].Stmt?
    ensures forall k :: 0 <= k < |a + b| ==> (a + b)[k].Stmt?
  {
  }

  /** An assembly is straight-line code: statements only, ending in the constructor call over
      the main property followed by the relation properties in declaration order. */
  lemma {:induction false} CompoundMappingStatements(h: Helpers, fn: string, params: string, c: CompoundSpec, nested: bool, parent: Option<string>)
    ensures var r := CompoundMapping(h, fn, params, c, nested, parent);
      r.Success? ==>
        && r.value.added == [c.mainProperty.name] + RelationNames(c.relations)
        && |r.value.lines| > 0
        && r.value.lines[|r.value.lines| - 1] == ConstructorLine(h, c, r.value.added, nested, parent)
        && (forall k :: 0 <= k < |r.value.lines| ==> r.value.lines[k].Stmt?)
    decreases c
  {
    var r := CompoundMapping(h, fn, params, c, nested, parent);
    if r.Success? {
      var main := c.mainProperty;
      var added := [main.name] + RelationNames(c.relations);
      var last := ConstructorLine(h, c, added, nested, parent);
      var body: seq<Line>;
      match main.dataTypeSpec.dataType {
        case Entity(entity) =>
          PropertyDeclarationStatement(h, fn, params, main);
          RelationStatements(h, fn, main.name + AccessSign, entity.columns, c.relations);
          assert !nested ==> PropertyDeclaration(h, fn, params, main).Success?;
          assert RelationDeclarations(h, fn, main.name + AccessSign, entity.columns, c.relations).Success?;
          var mainLines := if nested then [] else [PropertyDeclaration(h, fn, params, main).value];
          var relationLines := RelationDeclarations(h, fn, main.name + AccessSign, entity.columns, c.relations).value;
          StatementsConcat(mainLines, relationLines);
          body := mainLines + relationLines;
        case Compound(sub) =>
          var innerMapping := CompoundMapping(h, fn + h.toPascalCase(main.name), params, sub, nested, Some(main.name));
          assert innerMapping.Success?;
          CompoundMappingStatements(h, fn + h.toPascalCase(main.name), params, sub, nested, Some(main.name));
          var inner := innerMapping.value;
          var subMain := sub.mainProperty;
          var cols := if subMain.dataTypeSpec.dataType.Entity? then subMain.dataTypeSpec.dataType.entity.columns else [];
          var prefix := main.name + AccessSign + subMain.name + AccessSign;
          RelationStatements(h, fn, prefix, cols, c.relations);
          assert RelationDeclarations(h, fn, prefix, cols, c.relations).Success?;
          var relationLines := RelationDeclarations(h, fn, prefix, cols, c.relations).value;
          StatementsConcat(inner.lines, relationLines);
          body := inner.lines + relationLines;
      }
      assert r.value.lines == body + [last];
      StatementsConcat(body, [last]);
    }
  }

  /** An entity-rooted assembly declares the main property from its own query unless a
      surrounding `.map` block binds it, then one property per relation keyed by
      `main.<column>`, then the constructor. */
  lemma EntityRootedMapping(h: Helpers, fn: string, params: string, c: CompoundSpec, nested: bool, parent: Option<string>)
    requires c.mainProperty.dataTypeSpec.dataType.Entity?
    ensures var r := CompoundMapping(h, fn, params, c, nested, parent);
      var main := c.mainProperty;
      var relationLines := RelationDeclarations(h, fn, main.name + ".", main.dataTypeSpec.dataType.entity.columns, c.relations);
      var offset := if nested then 0 else 1;
      r.Success? ==>
        && relationLines.Success?
        && |r.value.lines| == |c.relations| + offset + 1
        && (!nested ==> r.value.lines[0] == PropertyDeclaration(h, fn, params, main).value)
        && r.value.lines[offset..offset + |c.relations|] == relationLines.value
  {
    var r := CompoundMapping(h, fn, params, c, nested, parent);
    var main := c.mainProperty;
    var entity := main.dataTypeSpec.dataType.entity;
    if r.Success? {
      PropertyDeclarationStatement(h, fn, params, main);
      RelationDeclarationsCorrect(h, fn, main.name + AccessSign, entity.columns, c.relations);
      var mainLines := if nested then [] else [PropertyDeclaration(h, fn, params, main).value];
      var relationLines := RelationDeclarations(h, fn, main.name + AccessSign, entity.columns, c.relations).value;
      var last := ConstructorLine(h, c, [main.name] + RelationNames(c.relations), nested, parent);
      assert r.value.lines == mainLines + relationLines + [last];
      assert (mainLines + relationLines + [last])[|mainLines|..|mainLines| + |relationLines|] == relationLines;
    }
  }

  /** A compound-rooted assembly first assembles the inner compound under the query-name
      prefix extended by the main property and binds it to the main property's name, then
      declares one property per relation keyed by `main.subMain.<column>`, then the
      constructor. */
  lemma CompoundRootedMapping(h: Helpers, fn: string, params: string, c: CompoundSpec, nested: bool, parent: Option<string>)
    requires c.mainProperty.dataTypeSpec.dataType.Compound?
    ensures var r := CompoundMapping(h, fn, params, c, nested, parent);
      var main := c.mainProperty;
      var sub := main.dataTypeSpec.dataType.compound;
      var inner := CompoundMapping(h, fn + h.toPascalCase(main.name), params, sub, nested, Some(main.name));
      r.Success? ==>
        && inner.Success?
        && r.value.lines[..|inner.value.lines|] == inner.value.lines
        && inner.value.lines[|inner.value.lines| - 1] == ConstructorLine(h, sub, inner.value.added, nested, Some(main.name))
        && (!IsBlank(main.name) ==> HasPrefix(inner.value.lines[|inner.value.lines| - 1].text, "val " + main.name + " = "))
        && (|c.relations| > 0 ==>
              && sub.mainProperty.dataTypeSpec.dataType.Entity?
              && var relationLines := RelationDeclarations(h, fn, main.name + "." + sub.mainProperty.name + ".",
                                                           sub.mainProperty.dataTypeSpec.dataType.entity.columns, c.relations);
                 relationLines.Success?
                 && r.value.lines[|inner.value.lines|..|r.value.lines| - 1] == relationLines.value)
  {
    var r := CompoundMapping(h, fn, params, c, nested, parent);
    if r.Success? {
      var main := c.mainProperty;
      var sub := main.dataTypeSpec.dataType.compound;
      CompoundMappingStatements(h, fn + h.toPascalCase(main.name), params, sub, nested, Some(main.name));
      var inner := CompoundMapping(h, fn + h.toPascalCase(main.name), params, sub, nested, Some(main.name)).value;
      var subMain := sub.mainProperty;
      var cols := if subMain.dataTypeSpec.dataType.Entity? then subMain.dataTypeSpec.dataType.entity.columns else [];
      var prefix := main.name + AccessSign + subMain.name + AccessSign;
      var relationLines := RelationDeclarations(h, fn, prefix, cols, c.relations).value;
      var last := ConstructorLine(h, c, [main.name] + RelationNames(c.relations), nested, parent);
      assert r.value.lines == inner.lines + relationLines + [last];
      assert (inner.lines + relationLines + [last])[..|inner.lines|] == inner.lines;
      assert (inner.lines + relationLines + [last])[|inner.lines|..|inner.lines| + |relationLines|] == relationLines;
      var bound := "val " + main.name + " = ";
      if !IsBlank(main.name) {
        var initializer := h.typeInitializer(h.className(sub.declaration), inner.added, false);
        assert (bound + initializer)[..|bound|] == bound;
      }
    }
  }

  // ---------------------------------------------------------------------------------------
  // Wrapper layers over a compound

  /** Number of collection and stream layers around the declared result. */
  function WrapperDepth(t: DataTypeSpec): nat
    decreases t
  {
    if t.dataType.IsWrapper() then 1 + WrapperDepth(t.dataType.wrapped) else 0
  }

  /** The k-th layer from the outside. */
  function Layer(t: DataTypeSpec, k: nat): DataTypeSpec
    requires k <= WrapperDepth(t)
    decreases k
  {
    if k == 0 then t else Layer(t.dataType.wrapped, k - 1)
  }

  /** A return type the compound path accepts: observable layers ending at a compound. */
  predicate ReturnChainValid(t: DataTypeSpec)
    decreases t
  {
    if t.dataType.IsWrapper() then Observable(t) && ReturnChainValid(t.dataType.wrapped)
    else t.dataType.Compound?
  }

  /** The outermost `.map` block maps the main query's result and returns it; an inner one maps
      the enclosing block's lambda parameter. Every block names its own lambda parameter after
      the main property, which is what the inner blocks and the assembly read. */
  lemma MapOpenShape(h: Helpers, fn: string, params: string, main: CompoundPropertySpec, await: string)
    ensures MapOpen(h, fn, params, main, await, false).Begin?
    ensures HasPrefix(MapOpen(h, fn, params, main, await, false).text,
                      "return queries." + fn + h.toPascalCase(main.name) + "(" + params + ")." + await + "()")
    ensures HasSuffix(MapOpen(h, fn, params, main, await, false).text, ".map { " + main.name + " -> ")
    ensures |MapOpen(h, fn, params, main, await, false).text|
      == |"return queries." + fn + h.toPascalCase(main.name) + "(" + params + ")." + await + "()"| + |".map { " + main.name + " -> "|
    ensures MapOpen(h, fn, params, main, await, true) == Begin(main.name + ".map { " + main.name + " -> ")
  {
    var call := "return queries." + fn + h.toPascalCase(main.name) + "(" + params + ")." + await + "()";
    var text := MapOpen(h, fn, params, main, await, false).text;
    var lambda := ".map { " + main.name + " -> ";
    assert text == call + lambda;
    ConcatAffixes(call, lambda);
  }

  /** The compound path succeeds exactly when every wrapper layer is observable, the layers
      end at a compound, and the compound is one the assembler accepts. */
  lemma {:induction false} CompoundReturnSucceeds(h: Helpers, fn: string, params: string, returnType: DataTypeSpec, c: CompoundSpec, nested: bool)
    ensures CompoundReturnLogic(h, fn, params, returnType, c, nested).Success? <==> ReturnChainValid(returnType) && MappingValid(c)
    decreases returnType
  {
    AwaitFunctionAccess(returnType);
    if returnType.dataType.IsWrapper() {
      CompoundReturnSucceeds(h, fn, params, returnType.dataType.wrapped, c, true);
    } else {
      CompoundMappingSucceeds(h, fn, params, c, nested, None);
    }
  }

  /** The outermost `n` layers all have an accessor. */
  predicate LayersObservable(t: DataTypeSpec, n: nat)
    requires n <= WrapperDepth(t)
  {
    forall j :: 0 <= j < n ==> Observable(Layer(t, j))
  }

  /** Peeling the outermost wrapper layer. */
  lemma LayersStep(t: DataTypeSpec, n: nat)
    requires t.dataType.IsWrapper() && 0 < n <= WrapperDepth(t)
    ensures Layer(t, n) == Layer(t.dataType.wrapped, n - 1)
    ensures LayersObservable(t, n) <==> Observable(t) && LayersObservable(t.dataType.wrapped, n - 1)
  {
    forall j | 0 < j < n
      ensures Layer(t, j) == Layer(t.dataType.wrapped, j - 1)
    {
    }
    if LayersObservable(t, n) {
      assert Observable(Layer(t, 0));
      forall j | 0 <= j < n - 1
        ensures Observable(Layer(t.dataType.wrapped, j))
      {
        assert Layer(t, j + 1) == Layer(t.dataType.wrapped, j);
      }
    }
    if Observable(t) && LayersObservable(t.dataType.wrapped, n - 1) {
      forall j | 0 <= j < n
        ensures Observable(Layer(t, j))
      {
        if j > 0 {
          assert Layer(t, j) == Layer(t.dataType.wrapped, j - 1);
        }
      }
    }
  }

  /** The compound path fails as the source's `addCompoundReturnLogic` does, at the outermost
      point of failure: with `NestedStreams` at the first wrapper layer without an accessor;
      with `UnsupportedReturnRoot` when every layer has one but the layers end at an entity or
      a class; and with the assembly's own error when they end at a compound it rejects. */
  lemma {:induction false} CompoundReturnFailure(h: Helpers, fn: string, params: string, returnType: DataTypeSpec, c: CompoundSpec, nested: bool)
    ensures var r := CompoundReturnLogic(h, fn, params, returnType, c, nested);
      var d := WrapperDepth(returnType);
      && (forall k :: 0 <= k < d && LayersObservable(returnType, k) && !Observable(Layer(returnType, k)) ==>
            r == Failure(NestedStreams))
      && (LayersObservable(returnType, d) && !Layer(returnType, d).dataType.Compound? ==>
            r == Failure(UnsupportedReturnRoot))
      && (LayersObservable(returnType, d) && Layer(returnType, d).dataType.Compound? && !MappingValid(c) ==>
            var mapping := CompoundMapping(h, fn, params, c, nested || d > 0, None);
            mapping.Failure? && r == Failure(mapping.error))
    decreases returnType
  {
    AwaitFunctionAccess(returnType);
    var d := WrapperDepth(returnType);
    if returnType.dataType.IsWrapper() {
      var wrapped := returnType.dataType.wrapped;
      CompoundReturnFailure(h, fn, params, wrapped, c, true);
      forall k | 0 < k < d && LayersObservable(returnType, k)
        ensures LayersObservable(wrapped, k - 1) && Layer(returnType, k) == Layer(wrapped, k - 1)
      {
        LayersStep(returnType, k);
      }
      LayersStep(returnType, d);
    } else {
      CompoundMappingSucceeds(h, fn, params, c, nested, None);
    }
  }

  /** The compound path opens exactly one block per wrapper layer and closes every block it
      opens. */
  lemma {:induction false} CompoundReturnBlocks(h: Helpers, fn: string, params: string, returnType: DataTypeSpec, c: CompoundSpec, nested: bool)
    ensures var r := CompoundReturnLogic(h, fn, params, returnType, c, nested);
      r.Success? ==> Balanced(r.value) && CountBegins(r.value) == WrapperDepth(returnType)
    decreases returnType
  {
    var r := CompoundReturnLogic(h, fn, params, returnType, c, nested);
    if r.Success? {
      if returnType.dataType.IsWrapper() {
        CompoundReturnBlocks(h, fn, params, returnType.dataType.wrapped, c, true);
        var inner := CompoundReturnLogic(h, fn, params, returnType.dataType.wrapped, c, true).value;
        var open := MapOpen(h, fn, params, c.mainProperty, AwaitFunction(returnType).value, nested);
        assert r.value == [open] + inner + [End];
        BalancedWrap(open, inner);
        CountBeginsAppend([open] + inner, [End]);
        CountBeginsAppend([open], inner);
      } else {
        CompoundMappingStatements(h, fn, params, c, nested, None);
        StatementsBalanced(r.value);
      }
    }
  }

  /** The compound path opens one `.map` block per wrapper layer, outermost first, and only the
      outermost one (at top level) calls the main query and returns its result. */
  lemma {:induction false} CompoundReturnOpens(h: Helpers, fn: string, params: string, returnType: DataTypeSpec, c: CompoundSpec, nested: bool)
    ensures var r := CompoundReturnLogic(h, fn, params, returnType, c, nested);
      r.Success? ==>
        && |r.value| >= WrapperDepth(returnType)
        && forall k :: 0 <= k < WrapperDepth(returnType) ==>
             && AwaitFunction(Layer(returnType, k)).Success?
             && r.value[k] == MapOpen(h, fn, params, c.mainProperty, AwaitFunction(Layer(returnType, k)).value, nested || k > 0)
    decreases returnType
  {
    var r := CompoundReturnLogic(h, fn, params, returnType, c, nested);
    if r.Success? && returnType.dataType.IsWrapper() {
      var d := WrapperDepth(returnType);
      var wrapped := returnType.dataType.wrapped;
      CompoundReturnOpens(h, fn, params, wrapped, c, true);
      var inner := CompoundReturnLogic(h, fn, params, wrapped, c, true).value;
      var open := MapOpen(h, fn, params, c.mainProperty, AwaitFunction(returnType).value, nested);
      assert r.value == [open] + inner + [End];
      forall k | 1 <= k < d
        ensures AwaitFunction(Layer(returnType, k)).Success?
        ensures r.value[k] == MapOpen(h, fn, params, c.mainProperty, AwaitFunction(Layer(returnType, k)).value, true)
      {
        assert Layer(returnType, k) == Layer(wrapped, k - 1);
        assert r.value[k] == inner[k - 1];
      }
    }
  }

  /** `lines` is `body` inside `d` opened blocks, followed by their `d` closings. */
  predicate WrappedAround(lines: seq<Line>, d: nat, body: seq<Line>) {
    && |lines| == 2 * d + |body|
    && lines[d..d + |body|] == body
    && lines[d + |body|..] == Repeat(d, End)
  }

  /** One more block around a wrapped body. */
  lemma WrapOnce(open: Line, inner: seq<Line>, d: nat, body: seq<Line>)
    requires WrappedAround(inner, d, body)
    ensures WrappedAround([open] + inner + [End], d + 1, body)
  {
    WrapSlices(open, inner, End, d, d + |body|);
    RepeatSnoc(d, End);
  }

  /** Inside all the blocks sits the assembly of the compound, nested as soon as there is a
      block, followed by one closing per block. */
  lemma {:induction false} CompoundReturnBody(h: Helpers, fn: string, params: string, returnType: DataTypeSpec, c: CompoundSpec, nested: bool)
    ensures var r := CompoundReturnLogic(h, fn, params, returnType, c, nested);
      var m := CompoundMapping(h, fn, params, c, nested || WrapperDepth(returnType) > 0, None);
      r.Success? ==> m.Success? && WrappedAround(r.value, WrapperDepth(returnType), m.value.lines)
    decreases returnType
  {
    var r := CompoundReturnLogic(h, fn, params, returnType, c, nested);
    if r.Success? && returnType.dataType.IsWrapper() {
      var wrapped := returnType.dataType.wrapped;
      CompoundReturnBody(h, fn, params, wrapped, c, true);
      var inner := CompoundReturnLogic(h, fn, params, wrapped, c, true).value;
      var open := MapOpen(h, fn, params, c.mainProperty, AwaitFunction(returnType).value, nested);
      assert r.value == [open] + inner + [End];
      WrapOnce(open, inner, WrapperDepth(wrapped), CompoundMapping(h, fn, params, c, true, None).value.lines);
    } else if r.Success? {
      var m := CompoundMapping(h, fn, params, c, nested, None);
      assert r.value == m.value.lines;
      assert r.value[|m.value.lines|..] == [] == Repeat(0, End);
    }
  }

  lemma {:induction false} RepeatSnoc<T>(n: nat, x: T)
    ensures Repeat(n + 1, x) == Repeat(n, x) + [x]
    decreases n
  {
    if n > 0 {
      RepeatSnoc(n - 1, x);
    }
  }

  lemma WrapSlices<T>(first: T, middle: seq<T>, last: T, i: nat, j: nat)
    requires i <= j <= |middle|
    ensures ([first] + middle + [last])[i + 1..j + 1] == middle[i..j]
    ensures ([first] + middle + [last])[j + 1..] == middle[j..] + [last]
  {
  }

  // ---------------------------------------------------------------------------------------
  // Function bodies and the generated class

  /** The compound path is taken exactly when the data type under the declared result's
      wrappers is a compound, with the declared (still wrapped) type and that compound;
      otherwise the body is the single passthrough statement. Either way the arguments are the
      parameter names joined with ", ". */
  lemma QueryLogicPaths(h: Helpers, fn: DaoFunctionSpec)
    ensures var params := JoinParams(fn.parameters);
      ReturnsCompound(h, fn) ==>
        QueryLogic(h, fn) == CompoundReturnLogic(h, fn.name, params, fn.returnTypeSpec.value,
                                                 h.getDataReturnType(fn.returnTypeSpec.value).dataType.compound, false)
    ensures var params := JoinParams(fn.parameters);
      !ReturnsCompound(h, fn) ==>
        && (QueryLogic(h, fn).Success? <==> SimpleReturnLogic(fn, params).Success?)
        && (QueryLogic(h, fn).Success? ==> QueryLogic(h, fn).value == [SimpleReturnLogic(fn, params).value])
  {
  }

  /** The argument list hands the parameters over in order: it splits back into their names. */
  lemma ArgumentsAreParameters(fn: DaoFunctionSpec)
    requires forall k :: 0 <= k < |fn.parameters| ==> PlainName(fn.parameters[k])
    ensures SplitParams(JoinParams(fn.parameters)) == fn.parameters
  {
    SplitJoinParams(fn.parameters);
  }

  /** When a function's query logic can be generated. */
  predicate QueryLogicValid(h: Helpers, fn: DaoFunctionSpec) {
    if ReturnsCompound(h, fn) then
      ReturnChainValid(fn.returnTypeSpec.value) && MappingValid(h.getDataReturnType(fn.returnTypeSpec.value).dataType.compound)
    else fn.returnTypeSpec.None? || Observable(fn.returnTypeSpec.value)
  }

  /** Query logic is generated exactly for valid functions, and it closes every block it opens:
      one per wrapper layer on the compound path, none on the passthrough. */
  lemma QueryLogicCorrect(h: Helpers, fn: DaoFunctionSpec)
    ensures QueryLogic(h, fn).Success? <==> QueryLogicValid(h, fn)
    ensures QueryLogic(h, fn).Success? ==>
      && Balanced(QueryLogic(h, fn).value)
      && CountBegins(QueryLogic(h, fn).value) == (if ReturnsCompound(h, fn) then WrapperDepth(fn.returnTypeSpec.value) else 0)
  {
    var params := JoinParams(fn.parameters);
    QueryLogicPaths(h, fn);
    if ReturnsCompound(h, fn) {
      var rt := fn.returnTypeSpec.value;
      var c := h.getDataReturnType(rt).dataType.compound;
      CompoundReturnSucceeds(h, fn.name, params, rt, c, false);
      CompoundReturnBlocks(h, fn.name, params, rt, c, false);
    } else {
      SimpleReturnPrefix(fn, params);
      if fn.returnTypeSpec.Some? {
        AwaitFunctionAccess(fn.returnTypeSpec.value);
      }
      if QueryLogic(h, fn).Success? {
        StatementsBalanced(QueryLogic(h, fn).value);
      }
    }
  }

  /** A transactional function's body is its query logic inside one transaction block, which
      returns its result exactly when the function has a return type; other bodies are the
      query logic alone. Either way every block opened is closed. */
  lemma FunctionBodyShape(h: Helpers, fn: DaoFunctionSpec)
    ensures FunctionBody(h, fn).Success? <==> QueryLogicValid(h, fn)
    ensures var r := FunctionBody(h, fn);
      r.Success? ==>
        var logic := QueryLogic(h, fn).value;
        && Balanced(r.value)
        && CountBegins(r.value) == (if fn.transactionSpec.Some? then 1 else 0) + CountBegins(logic)
        && (fn.transactionSpec.None? ==> r.value == logic)
        && (fn.transactionSpec.Some? ==>
              && r.value[0] == Begin(if fn.returnTypeSpec.Some? then "return transactionWithResult" else "transaction")
              && r.value[1..|r.value| - 1] == logic
              && r.value[|r.value| - 1] == End)
  {
    QueryLogicCorrect(h, fn);
    var r := FunctionBody(h, fn);
    if r.Success? && fn.transactionSpec.Some? {
      var logic := QueryLogic(h, fn).value;
      assert r.value == [TransactionOpen(fn)] + logic + [End];
      BalancedWrap(TransactionOpen(fn), logic);
      CountBeginsAppend([TransactionOpen(fn)] + logic, [End]);
      CountBeginsAppend([TransactionOpen(fn)], logic);
      assert r.value[1..|r.value| - 1] == logic;
    }
  }

  lemma FunctionBodiesStep(h: Helpers, fns: seq<DaoFunctionSpec>)
    requires |fns| > 0
    ensures var r := FunctionBodies(h, fns);
      var first := FunctionBody(h, fns[0]);
      var rest := FunctionBodies(h, fns[1..]);
      && (first.Failure? ==> r == Failure(first.error))
      && (first.Success? && rest.Failure? ==> r == Failure(rest.error))
      && (first.Success? && rest.Success? ==> r == Success([GeneratedFunction(fns[0].name, first.value)] + rest.value))
  {
  }

  /** Function bodies are generated in declaration order, one per declared function. */
  lemma {:induction false} FunctionBodiesCorrect(h: Helpers, fns: seq<DaoFunctionSpec>)
    ensures FunctionBodies(h, fns).Success? <==> forall k :: 0 <= k < |fns| ==> FunctionBody(h, fns[k]).Success?
    ensures var r := FunctionBodies(h, fns);
      r.Success? ==>
        && |r.value| == |fns|
        && forall k :: 0 <= k < |fns| ==>
             FunctionBody(h, fns[k]).Success? && r.value[k] == GeneratedFunction(fns[k].name, FunctionBody(h, fns[k]).value)
    decreases |fns|
  {
    if |fns| > 0 {
      FunctionBodiesCorrect(h, fns[1..]);
      FunctionBodiesStep(h, fns);
      assert forall k :: 1 <= k < |fns| ==> fns[k] == fns[1..][k - 1];
    }
  }

  /** The first function that cannot be generated aborts the whole class with its error. */
  lemma {:induction false} FunctionBodiesFirstFailure(h: Helpers, fns: seq<DaoFunctionSpec>)
    ensures var r := FunctionBodies(h, fns);
      r.Failure? ==>
        exists i :: 0 <= i < |fns| && FunctionBody(h, fns[i]).Failure? && r.error == FunctionBody(h, fns[i]).error
                    && forall j :: 0 <= j < i ==> FunctionBody(h, fns[j]).Success?
    decreases |fns|
  {
    var r := FunctionBodies(h, fns);
    if |fns| > 0 && r.Failure? {
      FunctionBodiesStep(h, fns);
      if FunctionBody(h, fns[0]).Failure? {
        assert FunctionBody(h, fns[0]).Failure? && r.error == FunctionBody(h, fns[0]).error;
      } else {
        FunctionBodiesFirstFailure(h, fns[1..]);
        var rest := FunctionBodies(h, fns[1..]);
        var i :| 0 <= i < |fns[1..]| && FunctionBody(h, fns[1..][i]).Failure? && rest.error == FunctionBody(h, fns[1..][i]).error
                 && forall j :: 0 <= j < i ==> FunctionBody(h, fns[1..][j]).Success?;
        assert fns[i + 1] == fns[1..][i];
        assert forall j :: 1 <= j < i + 1 ==> fns[j] == fns[1..][j - 1];
        assert FunctionBody(h, fns[i + 1]).Failure? && r.error == FunctionBody(h, fns[i + 1]).error;
      }
    }
  }

  /** A DAO is generated exactly when each of its functions is; the class is named after the
      DAO with the configured suffix and holds one balanced body per declared function, in
      order. */
  lemma GenerateDaoCorrect(h: Helpers, dao: DaoSpec, suffix: string)
    ensures GenerateDao(h, dao, suffix).Success? <==>
      forall k :: 0 <= k < |dao.functionSpecs| ==> QueryLogicValid(h, dao.functionSpecs[k])
    ensures var r := GenerateDao(h, dao, suffix);
      r.Success? ==>
        && r.value.className == dao.name + suffix
        && |r.value.functions| == |dao.functionSpecs|
        && forall k :: 0 <= k < |dao.functionSpecs| ==>
             && r.value.functions[k].name == dao.functionSpecs[k].name
             && FunctionBody(h, dao.functionSpecs[k]) == Success(r.value.functions[k].body)
             && Balanced(r.value.functions[k].body)
    ensures var r := GenerateDao(h, dao, suffix);
      r.Failure? ==>
        exists i :: 0 <= i < |dao.functionSpecs| && !QueryLogicValid(h, dao.functionSpecs[i])
                    && FunctionBody(h, dao.functionSpecs[i]) == Failure(r.error)
                    && forall j :: 0 <= j < i ==> QueryLogicValid(h, dao.functionSpecs[j])
  {
    var fns := dao.functionSpecs;
    FunctionBodiesCorrect(h, fns);
    FunctionBodiesFirstFailure(h, fns);
    forall k | 0 <= k < |fns|
      ensures FunctionBody(h, fns[k]).Success? <==> QueryLogicValid(h, fns[k])
      ensures FunctionBody(h, fns[k]).Success? ==> Balanced(FunctionBody(h, fns[k]).value)
    {
      FunctionBodyShape(h, fns[k]);
    }
  }
}

=== FILE: entity_mapper.dfy ===
/** The generated body of `KabinMapper.map` for one entity: a parsing pass that binds one
    local per stored column read from the cursor, then an initialisation pass that builds the
    entity from those locals as one nested constructor literal. Both passes walk the column
    tree depth-first and name a column by its access path through embedded properties. */
module EntityMapper {
  import opened Wrappers
  import opened Code
  import opened Specs

  const GetLong := "getLong"
  const GetDouble := "getDouble"
  const GetString := "getString"
  const GetBytes := "getBytes"
  const GetBoolean := "getBoolean"

  /** The `SqlCursor` getters a parse statement can call. */
  const CursorGetters: set<string> := {GetLong, GetDouble, GetString, GetBytes, GetBoolean}

  /** Kotlin types read without an adapter, by qualified name, and the getter that reads each. */
  const SupportedParsers: map<string, string> := map[
    "kotlin.Long" := GetLong,
    "kotlin.Double" := GetDouble,
    "kotlin.String" := GetString,
    "kotlin.ByteArray" := GetBytes,
    "kotlin.Boolean" := GetBoolean
  ]

  /** The Kotlin type each storage affinity holds natively, by qualified name. */
  const SupportedAffinity: map<TypeAffinity, string> := map[
    INTEGER := "kotlin.Long",
    TEXT := "kotlin.String",
    NONE := "kotlin.ByteArray",
    REAL := "kotlin.Double"
  ]

  /** The cursor getter for a storage affinity; `UNDEFINED` has none. */
  function GetParseFunction(affinity: TypeAffinity): (r: Result<string, GenError>)
    ensures r.Failure? <==> affinity == UNDEFINED
    ensures r.Success? ==> r.value in CursorGetters && r.value != GetBoolean
    ensures r.Success? ==> (r.value == GetString <==> affinity == NUMERIC || affinity == TEXT)
    ensures affinity in SupportedAffinity ==> r == Success(SupportedParsers[SupportedAffinity[affinity]])
    ensures affinity == NUMERIC ==> r == Success(GetString)
  {
    match affinity
    case INTEGER => Success(GetLong)
    case NUMERIC => Success(GetString)
    case REAL => Success(GetDouble)
    case TEXT => Success(GetString)
    case NONE => Success(GetBytes)
    case UNDEFINED => Failure(UndefinedAffinity)
  }

  /** The local name a column is bound to: its property name at the top level, otherwise the
      enclosing access path followed by the Pascal-cased property name. */
  function PropertyAccess(pascal: string -> string, parent: Option<string>, name: string): (r: string)
    ensures IsNullOrBlank(parent) ==> r == name
    ensures !IsNullOrBlank(parent) ==>
      && HasPrefix(r, parent.value)
      && HasSuffix(r, pascal(name))
      && |r| == |parent.value| + |pascal(name)|
  {
    if IsNullOrBlank(parent) then name else parent.value + pascal(name)
  }

  /** A stored column reached by the depth-first walk, with the name both passes give it. */
  datatype Leaf = Leaf(name: string, column: ColumnSpec)

  /** The canonical flattened column order: every plain column of the tree, depth-first,
      in declaration order, each named by its access path. */
  function Leaves(pascal: string -> string, cols: seq<ColumnSpec>, parent: Option<string>): (r: seq<Leaf>)
    ensures forall k :: 0 <= k < |r| ==> r[k].column.typeSpec.dataType.ClassColumn?
    decreases cols
  {
    if |cols| == 0 then []
    else
      var access := PropertyAccess(pascal, parent, cols[0].propertyName);
      (match cols[0].typeSpec.dataType
       case ClassColumn => [Leaf(access, cols[0])]
       case Embedded(sub) => Leaves(pascal, sub, Some(access)))
      + Leaves(pascal, cols[1..], parent)
  }

  /** How the parsing pass reads one plain column: the getter, and the adapter it registers. */
  datatype Parser = Parser(getter: string, adapter: Option<AdapterRef>)

  /** The storage affinity used when an adapter applies: the explicit one, else the declared type's. */
  function EffectiveAffinity(h: Helpers, column: ColumnSpec): TypeAffinity
  {
    if column.typeAffinity.Some? then column.typeAffinity.value else h.sqlType(column.typeSpec.declaration)
  }

  function AdapterFor(h: Helpers, column: ColumnSpec): Option<AdapterRef>
  {
    h.getAdapterReference(column.typeSpec.declaration, column.typeAffinity)
  }

  /** Chooses the getter for a plain column: through the storage affinity when the column has
      an adapter, otherwise through the table of natively supported Kotlin types. */
  function ColumnParser(h: Helpers, column: ColumnSpec): (r: Result<Parser, GenError>)
    ensures r.Success? ==> r.value.adapter == AdapterFor(h, column) && r.value.getter in CursorGetters
    ensures AdapterFor(h, column).Some? ==>
      (r.Success? <==> EffectiveAffinity(h, column) != UNDEFINED)
    ensures AdapterFor(h, column).None? ==>
      (r.Success? <==> column.typeSpec.declaration.qualifiedName.Some?
                       && column.typeSpec.declaration.qualifiedName.value in SupportedParsers)
    ensures AdapterFor(h, column).Some? && r.Success? ==>
      GetParseFunction(EffectiveAffinity(h, column)) == Success(r.value.getter)
    ensures AdapterFor(h, column).None? && r.Success? ==>
      var name := column.typeSpec.declaration.qualifiedName;
      name.Some? && name.value in SupportedParsers && r.value.getter == SupportedParsers[name.value]
    ensures r.Failure? ==>
      r.error == if AdapterFor(h, column).Some? then UndefinedAffinity else NoParser(column.typeSpec.declaration.qualifiedName)
  {
    var declaration := column.typeSpec.declaration;
    var adapter := AdapterFor(h, column);
    if adapter.Some? then
      var getter :- GetParseFunction(EffectiveAffinity(h, column));
      Success(Parser(getter, adapter))
    else if declaration.qualifiedName.Some? && declaration.qualifiedName.value in SupportedParsers then
      Success(Parser(SupportedParsers[declaration.qualifiedName.value], None))
    else
      Failure(NoParser(declaration.qualifiedName))
  }

  /** Every leaf has a parser. */
  predicate AllParse(h: Helpers, leaves: seq<Leaf>) {
    forall k :: 0 <= k < |leaves| ==> ColumnParser(h, leaves[k].column).Success?
  }

  function AdapterSet(adapter: Option<AdapterRef>): set<AdapterRef>
  {
    if adapter.Some? then {adapter.value} else {}
  }

  /** The adapters the leaves need. */
  function LeafAdapters(h: Helpers, leaves: seq<Leaf>): set<AdapterRef>
  {
    if |leaves| == 0 then {} else AdapterSet(AdapterFor(h, leaves[0].column)) + LeafAdapters(h, leaves[1..])
  }

  lemma {:induction false} LeafAdaptersAppend(h: Helpers, a: seq<Leaf>, b: seq<Leaf>)
    ensures LeafAdapters(h, a + b) == LeafAdapters(h, a) + LeafAdapters(h, b)
    decreases |a|
  {
    if |a| == 0 {
      assert a + b == b;
    } else {
      assert (a + b)[1..] == a[1..] + b;
      LeafAdaptersAppend(h, a[1..], b);
    }
  }

  /** One parse statement: `val <name> = cursor.<getter>(<index>)`. */
  datatype Binding = Binding(name: string, getter: string, index: nat)

  function BindingLine(b: Binding): Line
  {
    Stmt("val " + b.name + " = cursor." + b.getter + "(" + DecimalString(b.index) + ")")
  }

  /** The bindings read the leaves in order, with the leaves' names and parsers. */
  predicate BindsLeaves(h: Helpers, bindings: seq<Binding>, leaves: seq<Leaf>) {
    && |bindings| == |leaves|
    && forall k :: 0 <= k < |bindings| ==>
         && bindings[k].name == leaves[k].name
         && ColumnParser(h, leaves[k].column).Success?
         && bindings[k].getter == ColumnParser(h, leaves[k].column).value.getter
  }

  /** The bindings read consecutive cursor positions starting at `index`. */
  predicate Consecutive(bindings: seq<Binding>, index: nat) {
    forall k :: 0 <= k < |bindings| ==> bindings[k].index == index + k
  }

  /** What the parsing pass emits and the adapters it registers. */
  datatype Parsed = Parsed(bindings: seq<Binding>, adapters: set<AdapterRef>)

  /** A parsing result together with the next free cursor position. */
  datatype Threaded = Threaded(parsed: Parsed, next: nat)

  lemma BindsLeavesCons(h: Helpers, b: Binding, leaf: Leaf, bs: seq<Binding>, leaves: seq<Leaf>)
    requires BindsLeaves(h, bs, leaves)
    requires b.name == leaf.name && ColumnParser(h, leaf.column).Success?
    requires b.getter == ColumnParser(h, leaf.column).value.getter
    ensures BindsLeaves(h, [b] + bs, [leaf] + leaves)
  {
    forall k | 0 <= k < |bs| + 1
      ensures ([b] + bs)[k].name == ([leaf] + leaves)[k].name
    {
      if k > 0 {
        assert ([b] + bs)[k] == bs[k - 1];
        assert ([leaf] + leaves)[k] == leaves[k - 1];
      }
    }
  }

  lemma BindsLeavesAppend(h: Helpers, b1: seq<Binding>, l1: seq<Leaf>, b2: seq<Binding>, l2: seq<Leaf>)
    requires BindsLeaves(h, b1, l1) && BindsLeaves(h, b2, l2)
    ensures BindsLeaves(h, b1 + b2, l1 + l2)
  {
    forall k | |b1| <= k < |b1| + |b2|
      ensures (b1 + b2)[k].name == (l1 + l2)[k].name
    {
      assert (b1 + b2)[k] == b2[k - |b1|];
      assert (l1 + l2)[k] == l2[k - |b1|];
    }
  }

  lemma AllParseAppend(h: Helpers, a: seq<Leaf>, b: seq<Leaf>)
    ensures AllParse(h, a + b) <==> AllParse(h, a) && AllParse(h, b)
  {
    if AllParse(h, a + b) {
      forall k | 0 <= k < |a| ensures ColumnParser(h, a[k].column).Success? {
        assert (a + b)[k] == a[k];
      }
      forall k | 0 <= k < |b| ensures ColumnParser(h, b[k].column).Success? {
        assert (a + b)[|a| + k] == b[k];
      }
    }
  }

  /** The parsing pass with the cursor position threaded in and out: a plain column reads the
      current position and moves on by one, an embedded group hands the position to its own
      columns and continues from wherever they stopped. `ParseColumnsCorrect` states what it
      computes. */
  function ParseColumns(h: Helpers, cols: seq<ColumnSpec>, parent: Option<string>, index: nat): Result<Threaded, GenError>
    decreases cols
  {
    if |cols| == 0 then Success(Threaded(Parsed([], {}), index))
    else
      var column := cols[0];
      var access := PropertyAccess(h.toPascalCase, parent, column.propertyName);
      match column.typeSpec.dataType
      case ClassColumn =>
        var parser :- ColumnParser(h, column);
        var rest :- ParseColumns(h, cols[1..], parent, index + 1);
        var b := Binding(access, parser.getter, index);
        Success(Threaded(Parsed([b] + rest.parsed.bindings, AdapterSet(parser.adapter) + rest.parsed.adapters), rest.next))
      case Embedded(sub) =>
        var inner :- ParseColumns(h, sub, Some(access), index);
        var rest :- ParseColumns(h, cols[1..], parent, inner.next);
        Success(Threaded(
          Parsed(inner.parsed.bindings + rest.parsed.bindings, inner.parsed.adapters + rest.parsed.adapters),
          rest.next))
  }

  /** One unfolding of `ParseColumns` over a plain column. */
  lemma ParseColumnsPlainStep(h: Helpers, cols: seq<ColumnSpec>, parent: Option<string>, index: nat)
    requires |cols| > 0 && cols[0].typeSpec.dataType.ClassColumn?
    ensures ColumnParser(h, cols[0]).Failure? ==> ParseColumns(h, cols, parent, index).Failure?
    ensures ColumnParser(h, cols[0]).Success? ==>
      var access := PropertyAccess(h.toPascalCase, parent, cols[0].propertyName);
      var parser := ColumnParser(h, cols[0]).value;
      var rest := ParseColumns(h, cols[1..], parent, index + 1);
      ParseColumns(h, cols, parent, index) ==
        if rest.Failure? then Failure(rest.error)
        else Success(Threaded(Parsed([Binding(access, parser.getter, index)] + rest.value.parsed.bindings,
                                     AdapterSet(parser.adapter) + rest.value.parsed.adapters), rest.value.next))
  {
  }

  /** One unfolding of `ParseColumns` over an embedded group. */
  lemma ParseColumnsEmbeddedStep(h: Helpers, cols: seq<ColumnSpec>, parent: Option<string>, index: nat)
    requires |cols| > 0 && cols[0].typeSpec.dataType.Embedded?
    ensures var inner := ParseColumns(h, cols[0].typeSpec.dataType.columns, Some(PropertyAccess(h.toPascalCase, parent, cols[0].propertyName)), index);
      inner.Failure? ==> ParseColumns(h, cols, parent, index).Failure?
    ensures var inner := ParseColumns(h, cols[0].typeSpec.dataType.columns, Some(PropertyAccess(h.toPascalCase, parent, cols[0].propertyName)), index);
      inner.Success? ==>
      var rest := ParseColumns(h, cols[1..], parent, inner.value.next);
      ParseColumns(h, cols, parent, index) ==
        if rest.Failure? then Failure(rest.error)
        else Success(Threaded(Parsed(inner.value.parsed.bindings + rest.value.parsed.bindings,
                                     inner.value.parsed.adapters + rest.value.parsed.adapters), rest.value.next))
  {
  }

  /** The threaded pass succeeds exactly when every stored column has a parser, and then binds
      the stored columns in canonical order, with their names and getters, at consecutive
      positions from `index`, and registers exactly the adapters they need. */
  lemma {:induction false} ParseColumnsCorrect(h: Helpers, cols: seq<ColumnSpec>, parent: Option<string>, index: nat)
    ensures var r := ParseColumns(h, cols, parent, index);
      r.Success? <==> AllParse(h, Leaves(h.toPascalCase, cols, parent))
    ensures var r := ParseColumns(h, cols, parent, index);
      r.Success? ==>
      var leaves := Leaves(h.toPascalCase, cols, parent);
      && BindsLeaves(h, r.value.parsed.bindings, leaves)
      && Consecutive(r.value.parsed.bindings, index)
      && r.value.next == index + |leaves|
      && r.value.parsed.adapters == LeafAdapters(h, leaves)
    decreases cols, 1
  {
    if |cols| > 0 {
      if cols[0].typeSpec.dataType.ClassColumn? {
        ThreadedPlainCorrect(h, cols, parent, index);
      } else {
        ThreadedEmbeddedCorrect(h, cols, parent, index);
      }
    }
  }

  /** The statement of `ParseColumnsCorrect`, for its two cases. */
  predicate ThreadedSound(h: Helpers, cols: seq<ColumnSpec>, parent: Option<string>, index: nat) {
    var r := ParseColumns(h, cols, parent, index);
    var leaves := Leaves(h.toPascalCase, cols, parent);
    && (r.Success? <==> AllParse(h, leaves))
    && (r.Success? ==>
          && BindsLeaves(h, r.value.parsed.bindings, leaves)
          && Consecutive(r.value.parsed.bindings, index)
          && r.value.next == index + |leaves|
          && r.value.parsed.adapters == LeafAdapters(h, leaves))
  }

  lemma {:induction false} ThreadedPlainCorrect(h: Helpers, cols: seq<ColumnSpec>, parent: Option<string>, index: nat)
    requires |cols| > 0 && cols[0].typeSpec.dataType.ClassColumn?
    ensures ThreadedSound(h, cols, parent, index)
    decreases cols, 0
  {
    var column := cols[0];
    var access := PropertyAccess(h.toPascalCase, parent, column.propertyName);
    var tail := Leaves(h.toPascalCase, cols[1..], parent);
    var leaf := Leaf(access, column);
    AllParseAppend(h, [leaf], tail);
    assert [leaf][0].column == column;
    assert AllParse(h, [leaf]) <==> ColumnParser(h, column).Success?;
    ParseColumnsCorrect(h, cols[1..], parent, index + 1);
    ParseColumnsPlainStep(h, cols, parent, index);
    var rest := ParseColumns(h, cols[1..], parent, index + 1);
    if ColumnParser(h, column).Success? && rest.Success? {
      var b := Binding(access, ColumnParser(h, column).value.getter, index);
      BindsLeavesCons(h, b, leaf, rest.value.parsed.bindings, tail);
      LeafAdaptersAppend(h, [leaf], tail);
    }
  }

  lemma {:induction false} ThreadedEmbeddedCorrect(h: Helpers, cols: seq<ColumnSpec>, parent: Option<string>, index: nat)
    requires |cols| > 0 && cols[0].typeSpec.dataType.Embedded?
    ensures ThreadedSound(h, cols, parent, index)
    decreases cols, 0
  {
    var sub := cols[0].typeSpec.dataType.columns;
    var access := PropertyAccess(h.toPascalCase, parent, cols[0].propertyName);
    var head := Leaves(h.toPascalCase, sub, Some(access));
    var tail := Leaves(h.toPascalCase, cols[1..], parent);
    AllParseAppend(h, head, tail);
    ParseColumnsCorrect(h, sub, Some(access), index);
    ParseColumnsEmbeddedStep(h, cols, parent, index);
    var inner := ParseColumns(h, sub, Some(access), index);
    if inner.Success? {
      ParseColumnsCorrect(h, cols[1..], parent, inner.value.next);
      var rest := ParseColumns(h, cols[1..], parent, inner.value.next);
      if rest.Success? {
        BindsLeavesAppend(h, inner.value.parsed.bindings, head, rest.value.parsed.bindings, tail);
        LeafAdaptersAppend(h, head, tail);
      }
    }
  }

  /** The parsing pass as `addEntityPropertyParsing` writes it: after an embedded group the
      position advances by the group's number of direct columns. */
  function ParseColumnsAsWritten(h: Helpers, cols: seq<ColumnSpec>, parent: Option<string>, index: nat): Result<Parsed, GenError>
    decreases cols
  {
    if |cols| == 0 then Success(Parsed([], {}))
    else
      var column := cols[0];
      var access := PropertyAccess(h.toPascalCase, parent, column.propertyName);
      match column.typeSpec.dataType
      case ClassColumn =>
        var parser :- ColumnParser(h, column);
        var rest :- ParseColumnsAsWritten(h, cols[1..], parent, index + 1);
        var b := Binding(access, parser.getter, index);
        Success(Parsed([b] + rest.bindings, AdapterSet(parser.adapter) + rest.adapters))
      case Embedded(sub) =>
        var inner :- ParseColumnsAsWritten(h, sub, Some(access), index);
        var rest :- ParseColumnsAsWritten(h, cols[1..], parent, index + |sub|);
        Success(Parsed(inner.bindings + rest.bindings, inner.adapters + rest.adapters))
  }

  /** One unfolding of `ParseColumnsAsWritten` over a plain column. */
  lemma AsWrittenPlainStep(h: Helpers, cols: seq<ColumnSpec>, parent: Option<string>, index: nat)
    requires |cols| > 0 && cols[0].typeSpec.dataType.ClassColumn?
    ensures ColumnParser(h, cols[0]).Failure? ==> ParseColumnsAsWritten(h, cols, parent, index).Failure?
    ensures ColumnParser(h, cols[0]).Success? ==>
      var access := PropertyAccess(h.toPascalCase, parent, cols[0].propertyName);
      var parser := ColumnParser(h, cols[0]).value;
      var rest := ParseColumnsAsWritten(h, cols[1..], parent, index + 1);
      ParseColumnsAsWritten(h, cols, parent, index) ==
        if rest.Failure? then Failure(rest.error)
        else Success(Parsed([Binding(access, parser.getter, index)] + rest.value.bindings,
                            AdapterSet(parser.adapter) + rest.value.adapters))
  {
  }

  /** One unfolding of `ParseColumnsAsWritten` over an embedded group. */
  lemma AsWrittenEmbeddedStep(h: Helpers, cols: seq<ColumnSpec>, parent: Option<string>, index: nat)
    requires |cols| > 0 && cols[0].typeSpec.dataType.Embedded?
    ensures var inner := ParseColumnsAsWritten(h, cols[0].typeSpec.dataType.columns, Some(PropertyAccess(h.toPascalCase, parent, cols[0].propertyName)), index);
      inner.Failure? ==> ParseColumnsAsWritten(h, cols, parent, index).Failure?
    ensures var sub := cols[0].typeSpec.dataType.columns;
      var inner := ParseColumnsAsWritten(h, sub, Some(PropertyAccess(h.toPascalCase, parent, cols[0].propertyName)), index);
      inner.Success? ==>
      var rest := ParseColumnsAsWritten(h, cols[1..], parent, index + |sub|);
      ParseColumnsAsWritten(h, cols, parent, index) ==
        if rest.Failure? then Failure(rest.error)
        else Success(Parsed(inner.value.bindings + rest.value.bindings, inner.value.adapters + rest.value.adapters))
  {
  }

  /** Names, getters and adapters of the as-written pass are those of the canonical order;
      only the positions can differ (see EntityProofs). */
  lemma {:induction false} ParseColumnsAsWrittenCorrect(h: Helpers, cols: seq<ColumnSpec>, parent: Option<string>, index: nat)
    ensures var r := ParseColumnsAsWritten(h, cols, parent, index);
      r.Success? <==> AllParse(h, Leaves(h.toPascalCase, cols, parent))
    ensures var r := ParseColumnsAsWritten(h, cols, parent, index);
      r.Success? ==>
      var leaves := Leaves(h.toPascalCase, cols, parent);
      && BindsLeaves(h, r.value.bindings, leaves)
      && r.value.adapters == LeafAdapters(h, leaves)
    decreases cols, 1
  {
    if |cols| > 0 {
      if cols[0].typeSpec.dataType.ClassColumn? {
        AsWrittenPlainCorrect(h, cols, parent, index);
      } else {
        AsWrittenEmbeddedCorrect(h, cols, parent, index);
      }
    }
  }

  /** The statement of `ParseColumnsAsWrittenCorrect`, for its two cases. */
  predicate AsWrittenSound(h: Helpers, cols: seq<ColumnSpec>, parent: Option<string>, index: nat) {
    var r := ParseColumnsAsWritten(h, cols, parent, index);
    var leaves := Leaves(h.toPascalCase, cols, parent);
    && (r.Success? <==> AllParse(h, leaves))
    && (r.Success? ==> BindsLeaves(h, r.value.bindings, leaves) && r.value.adapters == LeafAdapters(h, leaves))
  }

  lemma {:induction false} AsWrittenPlainCorrect(h: Helpers, cols: seq<ColumnSpec>, parent: Option<string>, index: nat)
    requires |cols| > 0 && cols[0].typeSpec.dataType.ClassColumn?
    ensures AsWrittenSound(h, cols, parent, index)
    decreases cols, 0
  {
    var column := cols[0];
    var access := PropertyAccess(h.toPascalCase, parent, column.propertyName);
    var tail := Leaves(h.toPascalCase, cols[1..], parent);
    var leaf := Leaf(access, column);
    AllParseAppend(h, [leaf], tail);
    assert [leaf][0].column == column;
    assert AllParse(h, [leaf]) <==> ColumnParser(h, column).Success?;
    ParseColumnsAsWrittenCorrect(h, cols[1..], parent, index + 1);
    var rest := ParseColumnsAsWritten(h, cols[1..], parent, index + 1);
    if ColumnParser(h, column).Success? && rest.Success? {
      var parser := ColumnParser(h, column).value;
      var b := Binding(access, parser.getter, index);
      AsWrittenPlainStep(h, cols, parent, index);
      BindsLeavesCons(h, b, leaf, rest.value.bindings, tail);
      LeafAdaptersAppend(h, [leaf], tail);
    }
  }

  lemma {:induction false} AsWrittenEmbeddedCorrect(h: Helpers, cols: seq<ColumnSpec>, parent: Option<string>, index: nat)
    requires |cols| > 0 && cols[0].typeSpec.dataType.Embedded?
    ensures AsWrittenSound(h, cols, parent, index)
    decreases cols, 0
  {
    var sub := cols[0].typeSpec.dataType.columns;
    var access := PropertyAccess(h.toPascalCase, parent, cols[0].propertyName);
    var next := index + |sub|;
    var r := ParseColumnsAsWritten(h, cols, parent, index);
    var inner := ParseColumnsAsWritten(h, sub, Some(access), index);
    var rest := ParseColumnsAsWritten(h, cols[1..], parent, next);
    AsWrittenEmbeddedStep(h, cols, parent, index);
    assert r.Success? <==> inner.Success? && rest.Success?;
    assert r.Success? ==>
      r.value == Parsed(inner.value.bindings + rest.value.bindings, inner.value.adapters + rest.value.adapters);
    var head := Leaves(h.toPascalCase, sub, Some(access));
    var tail := Leaves(h.toPascalCase, cols[1..], parent);
    AllParseAppend(h, head, tail);
    ParseColumnsAsWrittenCorrect(h, sub, Some(access), index);
    ParseColumnsAsWrittenCorrect(h, cols[1..], parent, next);
    if r.Success? {
      BindsLeavesAppend(h, inner.value.bindings, head, rest.value.bindings, tail);
      LeafAdaptersAppend(h, head, tail);
    }
  }

  /** The cursor position the as-written pass reads each stored column from, in canonical
      order: a plain column takes the current position and moves on by one; after an embedded
      group the position moves on by the group's number of direct columns. */
  function AsWrittenPositions(cols: seq<ColumnSpec>, index: nat): seq<nat>
    decreases cols
  {
    if |cols| == 0 then []
    else match cols[0].typeSpec.dataType
      case ClassColumn => [index] + AsWrittenPositions(cols[1..], index + 1)
      case Embedded(sub) => AsWrittenPositions(sub, index) + AsWrittenPositions(cols[1..], index + |sub|)
  }

  /** The bindings read the given positions, one each, in order. */
  predicate ReadsPositions(bindings: seq<Binding>, positions: seq<nat>) {
    && |bindings| == |positions|
    && forall k :: 0 <= k < |bindings| ==> bindings[k].index == positions[k]
  }

  lemma ReadsPositionsAppend(b1: seq<Binding>, p1: seq<nat>, b2: seq<Binding>, p2: seq<nat>)
    requires ReadsPositions(b1, p1) && ReadsPositions(b2, p2)
    ensures ReadsPositions(b1 + b2, p1 + p2)
  {
    forall k | |b1| <= k < |b1| + |b2|
      ensures (b1 + b2)[k].index == (p1 + p2)[k]
    {
      assert (b1 + b2)[k] == b2[k - |b1|];
      assert (p1 + p2)[k] == p2[k - |b1|];
    }
  }

  /** The as-written pass reads exactly the positions `AsWrittenPositions` gives. */
  lemma {:induction false} AsWrittenReadsPositions(h: Helpers, cols: seq<ColumnSpec>, parent: Option<string>, index: nat)
    ensures PositionsSound(h, cols, parent, index)
    decreases cols, 1
  {
    if |cols| > 0 {
      if cols[0].typeSpec.dataType.ClassColumn? {
        PlainReadsPositions(h, cols, parent, index);
      } else {
        EmbeddedReadsPositions(h, cols, parent, index);
      }
    }
  }

  /** The statement of `AsWrittenReadsPositions`, for its two cases. */
  predicate PositionsSound(h: Helpers, cols: seq<ColumnSpec>, parent: Option<string>, index: nat) {
    var r := ParseColumnsAsWritten(h, cols, parent, index);
    r.Success? ==> ReadsPositions(r.value.bindings, AsWrittenPositions(cols, index))
  }

  lemma {:induction false} PlainReadsPositions(h: Helpers, cols: seq<ColumnSpec>, parent: Option<string>, index: nat)
    requires |cols| > 0 && cols[0].typeSpec.dataType.ClassColumn?
    ensures PositionsSound(h, cols, parent, index)
    decreases cols, 0
  {
    var r := ParseColumnsAsWritten(h, cols, parent, index);
    AsWrittenPlainStep(h, cols, parent, index);
    if r.Success? {
      var access := PropertyAccess(h.toPascalCase, parent, cols[0].propertyName);
      var rest := ParseColumnsAsWritten(h, cols[1..], parent, index + 1);
      var b := Binding(access, ColumnParser(h, cols[0]).value.getter, index);
      assert r.value.bindings == [b] + rest.value.bindings;
      assert AsWrittenPositions(cols, index) == [index] + AsWrittenPositions(cols[1..], index + 1);
      AsWrittenReadsPositions(h, cols[1..], parent, index + 1);
      ReadsPositionsAppend([b], [index], rest.value.bindings, AsWrittenPositions(cols[1..], index + 1));
    }
  }

  lemma {:induction false} EmbeddedReadsPositions(h: Helpers, cols: seq<ColumnSpec>, parent: Option<string>, index: nat)
    requires |cols| > 0 && cols[0].typeSpec.dataType.Embedded?
    ensures PositionsSound(h, cols, parent, index)
    decreases cols, 0
  {
    var r := ParseColumnsAsWritten(h, cols, parent, index);
    AsWrittenEmbeddedStep(h, cols, parent, index);
    if r.Success? {
      var sub := cols[0].typeSpec.dataType.columns;
      var access := PropertyAccess(h.toPascalCase, parent, cols[0].propertyName);
      var inner := ParseColumnsAsWritten(h, sub, Some(access), index);
      var rest := ParseColumnsAsWritten(h, cols[1..], parent, index + |sub|);
      assert r.value.bindings == inner.value.bindings + rest.value.bindings;
      assert AsWrittenPositions(cols, index) == AsWrittenPositions(sub, index) + AsWrittenPositions(cols[1..], index + |sub|);
      AsWrittenReadsPositions(h, sub, Some(access), index);
      AsWrittenReadsPositions(h, cols[1..], parent, index + |sub|);
      ReadsPositionsAppend(inner.value.bindings, AsWrittenPositions(sub, index),
                           rest.value.bindings, AsWrittenPositions(cols[1..], index + |sub|));
    }
  }

  /** One step of the constructor literal: an opening `T(` (with `return ` at the top level),
      one argument per plain column naming the local it reads, or the closing parenthesis
      (followed by `,` when the literal is itself an argument). */
  datatype Piece = CtorOpen(className: string, isReturn: bool) | CtorArg(binding: string, expr: string) | CtorClose(nested: bool)

  function PieceLine(p: Piece): Line
  {
    match p
    case CtorOpen(t, isReturn) => Stmt(if isReturn then "return " + t + "(" else t + "(")
    case CtorArg(_, expr) => Stmt(expr + ",")
    case CtorClose(nested) => Stmt(if nested then ")," else ")")
  }

  /** The argument expression for a parsed local: force-unwrapped or passed through by
      nullability, or unwrapped into the adapter's `decode` when the column has an adapter. */
  function PropertyDecoding(h: Helpers, isNullable: bool, property: string, affinity: Option<TypeAffinity>, declaration: ClassDecl): (r: string)
    ensures HasPrefix(r, property)
    ensures var adapter := h.getAdapterReference(declaration, affinity);
      adapter.Some? ==> HasSuffix(r, h.adapterPropertyName(adapter.value) + "::decode)")
    ensures h.getAdapterReference(declaration, affinity).None? ==>
      (r == property <==> isNullable)
    ensures var adapter := h.getAdapterReference(declaration, affinity);
      var accessor := property + (if isNullable then "?" else "!!");
      adapter.Some? ==>
        && HasPrefix(r, accessor + ".let(")
        && |r| == |accessor + ".let("| + |h.adapterPropertyName(adapter.value) + "::decode)"|
    ensures h.getAdapterReference(declaration, affinity).None? && !isNullable ==> r == property + "!!"
  {
    var adapter := h.getAdapterReference(declaration, affinity);
    var sign := if isNullable then "?" else "!!";
    var accessor := property + sign;
    if adapter.Some? then
      accessor + ".let(" + h.adapterPropertyName(adapter.value) + "::decode)"
    else if isNullable then property
    else accessor
  }

  /** The constructor literal for `declaration` over `cols`. */
  function EntityInitialization(h: Helpers, declaration: ClassDecl, cols: seq<ColumnSpec>, parent: Option<string>): (r: seq<Piece>)
    ensures |r| >= 2
    ensures r[0] == CtorOpen(h.className(declaration), IsNullOrBlank(parent))
    ensures r[|r| - 1] == CtorClose(!IsNullOrBlank(parent))
    decreases cols, 1
  {
    var nested := !IsNullOrBlank(parent);
    [CtorOpen(h.className(declaration), !nested)] + ColumnInitialization(h, cols, parent) + [CtorClose(nested)]
  }

  /** The arguments of one constructor literal, one per column in declaration order. */
  function ColumnInitialization(h: Helpers, cols: seq<ColumnSpec>, parent: Option<string>): (r: seq<Piece>)
    ensures |cols| == 0 <==> |r| == 0
    decreases cols, 0
  {
    if |cols| == 0 then []
    else
      var column := cols[0];
      var access := PropertyAccess(h.toPascalCase, parent, column.propertyName);
      (match column.typeSpec.dataType
       case ClassColumn =>
         [CtorArg(access, PropertyDecoding(h, column.typeSpec.isNullable, access, column.typeAffinity, column.typeSpec.declaration))]
       case Embedded(sub) =>
         EntityInitialization(h, column.typeSpec.declaration, sub, Some(access)))
      + ColumnInitialization(h, cols[1..], parent)
  }

  function BindingLines(bindings: seq<Binding>): (r: seq<Line>)
    ensures |r| == |bindings|
    ensures forall k :: 0 <= k < |r| ==> r[k] == BindingLine(bindings[k])
  {
    seq(|bindings|, k requires 0 <= k < |bindings| => BindingLine(bindings[k]))
  }

  function PieceLines(pieces: seq<Piece>): (r: seq<Line>)
    ensures |r| == |pieces|
    ensures forall k :: 0 <= k < |r| ==> r[k] == PieceLine(pieces[k])
  {
    seq(|pieces|, k requires 0 <= k < |pieces| => PieceLine(pieces[k]))
  }

  /** The generated `map` body and the adapters the entity's mapper needs. */
  datatype Mapper = Mapper(body: seq<Line>, adapters: set<AdapterRef>)

  /** The corrected `map` body, over the threaded pass: the parse statements for every stored
      column in canonical order at positions 0, 1, 2, ..., then the constructor literal
      `return T(` ... `)` line by line; the adapters are those of all leaves. */
  function EntityParseFunction(h: Helpers, entity: EntitySpec): (r: Result<Mapper, GenError>)
    ensures var leaves := Leaves(h.toPascalCase, entity.columns, None);
      r.Success? <==> AllParse(h, leaves)
    ensures r.Success? ==>
      var leaves := Leaves(h.toPascalCase, entity.columns, None);
      && r.value.adapters == LeafAdapters(h, leaves)
      && |r.value.body| >= |leaves| + 2
      && (forall k :: 0 <= k < |leaves| ==>
            r.value.body[k] == BindingLine(Binding(leaves[k].name, ColumnParser(h, leaves[k].column).value.getter, k)))
      && r.value.body[|leaves|] == Stmt("return " + h.className(entity.declaration) + "(")
      && r.value.body[|r.value.body| - 1] == Stmt(")")
      && r.value.body[|leaves|..] == PieceLines(EntityInitialization(h, entity.declaration, entity.columns, None))
  {
    ParseColumnsCorrect(h, entity.columns, None, 0);
    var threaded :- ParseColumns(h, entity.columns, None, 0);
    var pieces := EntityInitialization(h, entity.declaration, entity.columns, None);
    Success(Mapper(BindingLines(threaded.parsed.bindings) + PieceLines(pieces), threaded.parsed.adapters))
  }

  /** The `map` body as `addEntityParseFunction` generates it, over the as-written parsing pass:
      the parse statements for every stored column in canonical order, the k-th read from
      `AsWrittenPositions(columns, 0)[k]`, then the constructor literal `return T(` ... `)` line
      by line; the adapters are those of all leaves. */
  function EntityParseFunctionAsWritten(h: Helpers, entity: EntitySpec): (r: Result<Mapper, GenError>)
    ensures var leaves := Leaves(h.toPascalCase, entity.columns, None);
      r.Success? <==> AllParse(h, leaves)
    ensures r.Success? ==>
      var leaves := Leaves(h.toPascalCase, entity.columns, None);
      var positions := AsWrittenPositions(entity.columns, 0);
      && r.value.adapters == LeafAdapters(h, leaves)
      && |positions| == |leaves|
      && |r.value.body| >= |leaves| + 2
      && (forall k :: 0 <= k < |leaves| ==>
            r.value.body[k] == BindingLine(Binding(leaves[k].name, ColumnParser(h, leaves[k].column).value.getter, positions[k])))
      && r.value.body[|leaves|] == Stmt("return " + h.className(entity.declaration) + "(")
      && r.value.body[|r.value.body| - 1] == Stmt(")")
      && r.value.body[|leaves|..] == PieceLines(EntityInitialization(h, entity.declaration, entity.columns, None))
  {
    ParseColumnsAsWrittenCorrect(h, entity.columns, None, 0);
    AsWrittenReadsPositions(h, entity.columns, None, 0);
    var parsed :- ParseColumnsAsWritten(h, entity.columns, None, 0);
    var pieces := EntityInitialization(h, entity.declaration, entity.columns, None);
    Success(Mapper(BindingLines(parsed.bindings) + PieceLines(pieces), parsed.adapters))
  }
}

=== FILE: entity_proofs.dfy ===
/** Properties of the entity mapper: the two passes agree on order and names, the constructor
    literal is well nested, decoding uses only registered adapters, and the as-written column
    positions agree with the canonical ones whenever embedded groups are flat. */
module EntityProofs {
  import opened Wrappers
  import opened Code
  import opened Specs
  import opened EntityMapper

  /** Number of stored columns under `cols`, independent of naming. */
  function LeafCount(cols: seq<ColumnSpec>): nat
    decreases cols
  {
    if |cols| == 0 then 0
    else
      (match cols[0].typeSpec.dataType
       case ClassColumn => 1
       case Embedded(sub) => LeafCount(sub))
      + LeafCount(cols[1..])
  }

  lemma {:induction false} LeavesCount(pascal: string -> string, cols: seq<ColumnSpec>, parent: Option<string>)
    ensures |Leaves(pascal, cols, parent)| == LeafCount(cols)
    decreases cols
  {
    if |cols| > 0 {
      var access := PropertyAccess(pascal, parent, cols[0].propertyName);
      match cols[0].typeSpec.dataType {
        case ClassColumn =>
        case Embedded(sub) => LeavesCount(pascal, sub, Some(access));
      }
      LeavesCount(pascal, cols[1..], parent);
    }
  }

  /** Every embedded group, at every depth, has as many direct columns as stored columns. */
  predicate IndexAligned(cols: seq<ColumnSpec>)
    decreases cols
  {
    |cols| == 0 ||
    (&& (match cols[0].typeSpec.dataType
         case ClassColumn => true
         case Embedded(sub) => |sub| == LeafCount(sub) && IndexAligned(sub))
     && IndexAligned(cols[1..]))
  }

  /** Every embedded group holds plain columns only. */
  predicate FlatEmbeddings(cols: seq<ColumnSpec>) {
    forall k :: 0 <= k < |cols| ==>
      cols[k].typeSpec.dataType.Embedded? ==>
        forall j :: 0 <= j < |cols[k].typeSpec.dataType.columns| ==>
          cols[k].typeSpec.dataType.columns[j].typeSpec.dataType.ClassColumn?
  }

  lemma {:induction false} PlainColumnsAligned(cols: seq<ColumnSpec>)
    requires forall j :: 0 <= j < |cols| ==> cols[j].typeSpec.dataType.ClassColumn?
    ensures LeafCount(cols) == |cols|
    ensures IndexAligned(cols)
    decreases cols
  {
    if |cols| > 0 {
      PlainColumnsAligned(cols[1..]);
    }
  }

  lemma {:induction false} FlatEmbeddingsAligned(cols: seq<ColumnSpec>)
    requires FlatEmbeddings(cols)
    ensures IndexAligned(cols)
    decreases cols
  {
    if |cols| > 0 {
      match cols[0].typeSpec.dataType {
        case ClassColumn =>
        case Embedded(sub) =>
          assert cols[0].typeSpec.dataType.columns == sub;
          PlainColumnsAligned(sub);
      }
      assert FlatEmbeddings(cols[1..]) by {
        forall k | 0 <= k < |cols[1..]| ensures cols[1..][k] == cols[k + 1] { }
      }
      FlatEmbeddingsAligned(cols[1..]);
    }
  }

  lemma NotBlankExtends(p: string, x: string)
    requires !IsBlank(p)
    ensures !IsBlank(p + x)
  {
    var i :| 0 <= i < |p| && !IsWhitespace(p[i]);
    assert (p + x)[i] == p[i];
  }

  lemma PrefixTransitive(s: string, p: string, x: string)
    requires HasPrefix(s, p + x)
    ensures HasPrefix(s, p)
  {
    assert s[..|p|] == (p + x)[..|p|];
  }

  /** Inside a group reached through the access path `p`, every stored column's local name
      starts with `p`: the path accumulates through every level of nesting. */
  lemma {:induction false} LeavesUnderParent(pascal: string -> string, cols: seq<ColumnSpec>, p: string)
    requires !IsBlank(p)
    ensures forall k :: 0 <= k < |Leaves(pascal, cols, Some(p))| ==> HasPrefix(Leaves(pascal, cols, Some(p))[k].name, p)
    decreases cols
  {
    if |cols| > 0 {
      var access := PropertyAccess(pascal, Some(p), cols[0].propertyName);
      assert access == p + pascal(cols[0].propertyName);
      var head := match cols[0].typeSpec.dataType
        case ClassColumn => [Leaf(access, cols[0])]
        case Embedded(sub) => Leaves(pascal, sub, Some(access));
      var tail := Leaves(pascal, cols[1..], Some(p));
      assert Leaves(pascal, cols, Some(p)) == head + tail;
      LeavesUnderParent(pascal, cols[1..], p);
      match cols[0].typeSpec.dataType {
        case ClassColumn =>
        case Embedded(sub) =>
          NotBlankExtends(p, pascal(cols[0].propertyName));
          LeavesUnderParent(pascal, sub, access);
          forall k | 0 <= k < |head| ensures HasPrefix(head[k].name, p) {
            PrefixTransitive(head[k].name, p, pascal(cols[0].propertyName));
          }
      }
      forall k | 0 <= k < |head + tail| ensures HasPrefix((head + tail)[k].name, p) {
        if k >= |head| {
          assert (head + tail)[k] == tail[k - |head|];
        }
      }
    }
  }

  /** The threaded pass moves the cursor position on by the number of stored columns. */
  lemma ThreadedNext(h: Helpers, cols: seq<ColumnSpec>, parent: Option<string>, index: nat)
    ensures var r := ParseColumns(h, cols, parent, index);
      r.Success? ==> r.value.next == index + LeafCount(cols)
  {
    ParseColumnsCorrect(h, cols, parent, index);
    LeavesCount(h.toPascalCase, cols, parent);
  }

  /** The two passes emit the same bindings and adapters. */
  predicate PassesAgree(h: Helpers, cols: seq<ColumnSpec>, parent: Option<string>, index: nat) {
    var written := ParseColumnsAsWritten(h, cols, parent, index);
    var threaded := ParseColumns(h, cols, parent, index);
    && written.Success? == threaded.Success?
    && (threaded.Success? ==> written.value == threaded.value.parsed)
  }

  /** Where groups are aligned, advancing by the direct column count is advancing by the
      stored column count, so the as-written pass emits exactly the canonical bindings. */
  lemma {:induction false} AsWrittenMatchesThreaded(h: Helpers, cols: seq<ColumnSpec>, parent: Option<string>, index: nat)
    requires IndexAligned(cols)
    ensures ParseColumnsAsWritten(h, cols, parent, index).Success? == ParseColumns(h, cols, parent, index).Success?
    ensures ParseColumns(h, cols, parent, index).Success? ==>
      ParseColumnsAsWritten(h, cols, parent, index).value == ParseColumns(h, cols, parent, index).value.parsed
    decreases cols, 1
  {
    if |cols| > 0 {
      if cols[0].typeSpec.dataType.ClassColumn? {
        PlainAgree(h, cols, parent, index);
      } else {
        EmbeddedAgree(h, cols, parent, index);
      }
    }
  }

  lemma {:induction false} PlainAgree(h: Helpers, cols: seq<ColumnSpec>, parent: Option<string>, index: nat)
    requires |cols| > 0 && cols[0].typeSpec.dataType.ClassColumn? && IndexAligned(cols)
    ensures PassesAgree(h, cols, parent, index)
    decreases cols, 0
  {
    ParseColumnsPlainStep(h, cols, parent, index);
    AsWrittenPlainStep(h, cols, parent, index);
    if ColumnParser(h, cols[0]).Success? {
      AsWrittenMatchesThreaded(h, cols[1..], parent, index + 1);
    }
  }

  /** What alignment says about an embedded first column and the columns after it. */
  lemma AlignedEmbeddedHead(cols: seq<ColumnSpec>)
    requires |cols| > 0 && cols[0].typeSpec.dataType.Embedded? && IndexAligned(cols)
    ensures var sub := cols[0].typeSpec.dataType.columns;
      |sub| == LeafCount(sub) && IndexAligned(sub) && IndexAligned(cols[1..])
  {
  }

  lemma {:induction false} EmbeddedAgree(h: Helpers, cols: seq<ColumnSpec>, parent: Option<string>, index: nat)
    requires |cols| > 0 && cols[0].typeSpec.dataType.Embedded? && IndexAligned(cols)
    ensures PassesAgree(h, cols, parent, index)
    decreases cols, 0
  {
    var sub := cols[0].typeSpec.dataType.columns;
    var access := PropertyAccess(h.toPascalCase, parent, cols[0].propertyName);
    var next := index + |sub|;
    var written := ParseColumnsAsWritten(h, cols, parent, index);
    var threaded := ParseColumns(h, cols, parent, index);
    var writtenInner := ParseColumnsAsWritten(h, sub, Some(access), index);
    var writtenRest := ParseColumnsAsWritten(h, cols[1..], parent, next);
    var inner := ParseColumns(h, sub, Some(access), index);
    AsWrittenEmbeddedStep(h, cols, parent, index);
    assert written.Success? <==> writtenInner.Success? && writtenRest.Success?;
    assert written.Success? ==>
      written.value == Parsed(writtenInner.value.bindings + writtenRest.value.bindings,
                              writtenInner.value.adapters + writtenRest.value.adapters);
    ParseColumnsEmbeddedStep(h, cols, parent, index);
    assert inner.Failure? ==> threaded.Failure?;
    AlignedEmbeddedHead(cols);
    AsWrittenMatchesThreaded(h, sub, Some(access), index);
    if inner.Success? {
      ThreadedNext(h, sub, Some(access), index);
      assert inner.value.next == next;
      var rest := ParseColumns(h, cols[1..], parent, next);
      assert threaded.Success? <==> rest.Success?;
      assert threaded.Success? ==>
        threaded.value.parsed == Parsed(inner.value.parsed.bindings + rest.value.parsed.bindings,
                                        inner.value.parsed.adapters + rest.value.parsed.adapters);
      AsWrittenMatchesThreaded(h, cols[1..], parent, next);
    }
  }

  /** For entities whose embedded groups hold plain columns only, the parser as written reads
      the stored columns in canonical order at positions index, index + 1, ... */
  lemma AsWrittenConsecutiveWhenFlat(h: Helpers, cols: seq<ColumnSpec>, index: nat)
    requires FlatEmbeddings(cols)
    ensures var r := ParseColumnsAsWritten(h, cols, None, index);
      r.Success? ==>
        && BindsLeaves(h, r.value.bindings, Leaves(h.toPascalCase, cols, None))
        && Consecutive(r.value.bindings, index)
  {
    FlatEmbeddingsAligned(cols);
    AsWrittenMatchesThreaded(h, cols, None, index);
    ParseColumnsCorrect(h, cols, None, index);
  }

  /** Sample helpers for the worked examples below. */
  function SampleHelpers(): Helpers
  {
    Helpers(
      s => s,
      (t, ps, isForReturn) => t,
      d => d,
      (c, a) => None,
      c => INTEGER,
      (a: AdapterRef) => a.key,
      (c: ClassDecl) => c.simpleName)
  }

  function LongColumn(name: string): ColumnSpec
  {
    ColumnSpec(name, name, None, ColumnTypeSpec(false, ClassDecl("Long", Some("kotlin.Long")), ClassColumn))
  }

  function EmbeddedColumn(name: string, cols: seq<ColumnSpec>): ColumnSpec
  {
    ColumnSpec(name, name, None, ColumnTypeSpec(true, ClassDecl(name, Some(name)), Embedded(cols)))
  }

  lemma SampleParsers()
    ensures ColumnParser(SampleHelpers(), LongColumn("x")) == Success(Parser(GetLong, None))
    ensures ColumnParser(SampleHelpers(), LongColumn("y")) == Success(Parser(GetLong, None))
    ensures ColumnParser(SampleHelpers(), LongColumn("c")) == Success(Parser(GetLong, None))
    ensures !IsBlank("a") && !IsBlank("ab")
  {
    assert "ab"[0] == 'a';
    assert "a"[0] == 'a';
  }

  /** Inside `a.b`, the columns `x` and `y` are read from positions 0 and 1. */
  lemma SampleInnerGroup()
    ensures var r := ParseColumnsAsWritten(SampleHelpers(), [LongColumn("x"), LongColumn("y")], Some("ab"), 0);
      r.Success? && |r.value.bindings| == 2 && r.value.bindings[1] == Binding("aby", GetLong, 1)
  {
    var h := SampleHelpers();
    var x := LongColumn("x");
    var y := LongColumn("y");
    SampleParsers();
    assert PropertyAccess(h.toPascalCase, Some("ab"), "y") == "aby";
    assert [x, y][0] == x && [x, y][1..] == [y] && [y][0] == y && [y][1..] == [];
    var ry := ParseColumnsAsWritten(h, [y], Some("ab"), 1);
    assert ParseColumnsAsWritten(h, [], Some("ab"), 2) == Success(Parsed([], {}));
    assert ry.Success? && |ry.value.bindings| == 1 && ry.value.bindings[0].index == 1;
    assert ry.value.bindings[0].name == "aby";
    var rxy := ParseColumnsAsWritten(h, [x, y], Some("ab"), 0);
    assert rxy.Success? && rxy.value.bindings[1..] == ry.value.bindings;
  }

  /** The group `a`, holding only `b`, emits exactly `b`'s bindings. */
  lemma SampleOuterGroup()
    ensures var r := ParseColumnsAsWritten(SampleHelpers(), [EmbeddedColumn("b", [LongColumn("x"), LongColumn("y")])], Some("a"), 0);
      r.Success? && |r.value.bindings| == 2 && r.value.bindings[1] == Binding("aby", GetLong, 1)
  {
    var h := SampleHelpers();
    var b := EmbeddedColumn("b", [LongColumn("x"), LongColumn("y")]);
    SampleParsers();
    SampleInnerGroup();
    assert PropertyAccess(h.toPascalCase, Some("a"), "b") == "ab";
    assert [b][0] == b && [b][1..] == [];
    assert b.typeSpec.dataType == Embedded([LongColumn("x"), LongColumn("y")]);
    var inner := ParseColumnsAsWritten(h, [LongColumn("x"), LongColumn("y")], Some("ab"), 0);
    assert ParseColumnsAsWritten(h, [], Some("a"), 2) == Success(Parsed([], {}));
    var r := ParseColumnsAsWritten(h, [b], Some("a"), 0);
    assert r.Success? && r.value.bindings == inner.value.bindings + [];
  }

  /** After the group `a`, which has one direct column, `c` is read from position 1. */
  lemma SampleTail()
    ensures var r := ParseColumnsAsWritten(SampleHelpers(), [LongColumn("c")], None, 1);
      r.Success? && r.value.bindings == [Binding("c", GetLong, 1)]
  {
    var h := SampleHelpers();
    var c := LongColumn("c");
    SampleParsers();
    assert [c][0] == c && [c][1..] == [];
    assert ParseColumnsAsWritten(h, [], None, 2) == Success(Parsed([], {}));
  }

  function SampleColumns(): seq<ColumnSpec>
  {
    [EmbeddedColumn("a", [EmbeddedColumn("b", [LongColumn("x"), LongColumn("y")])]), LongColumn("c")]
  }

  lemma SampleAsWritten()
    ensures var r := ParseColumnsAsWritten(SampleHelpers(), SampleColumns(), None, 0);
      && r.Success?
      && |r.value.bindings| == 3
      && r.value.bindings[1] == Binding("aby", GetLong, 1)
      && r.value.bindings[2] == Binding("c", GetLong, 1)
  {
    var h := SampleHelpers();
    var cols := SampleColumns();
    SampleParsers();
    SampleOuterGroup();
    SampleTail();
    assert cols[1..] == [LongColumn("c")];
    assert cols[0].typeSpec.dataType.columns == [EmbeddedColumn("b", [LongColumn("x"), LongColumn("y")])];
    assert PropertyAccess(h.toPascalCase, None, "a") == "a";
    var group := ParseColumnsAsWritten(h, cols[0].typeSpec.dataType.columns, Some("a"), 0);
    var tail := ParseColumnsAsWritten(h, [LongColumn("c")], None, 1);
    var r := ParseColumnsAsWritten(h, cols, None, 0);
    assert r.Success? && r.value.bindings == group.value.bindings + tail.value.bindings;
  }

  lemma SampleThreaded()
    ensures var r := ParseColumns(SampleHelpers(), SampleColumns(), None, 0);
      && r.Success?
      && |r.value.parsed.bindings| == 3
      && [r.value.parsed.bindings[0].index, r.value.parsed.bindings[1].index, r.value.parsed.bindings[2].index] == [0, 1, 2]
  {
    var h := SampleHelpers();
    var cols := SampleColumns();
    SampleAsWritten();
    LeavesCount(h.toPascalCase, cols, None);
    assert LeafCount(cols[0].typeSpec.dataType.columns[0].typeSpec.dataType.columns) == 2;
    assert LeafCount(cols) == 3;
  }

  /** An embedded group `a` holding an embedded group `b` of two columns, followed by a plain
      column `c`: as written, `c` is read from position 1, the position `b`'s second column `y`
      is read from, while the threaded pass reads the three columns from 0, 1 and 2. */
  lemma NestedEmbeddingReusesIndex()
    ensures var asWritten := ParseColumnsAsWritten(SampleHelpers(), SampleColumns(), None, 0);
      && asWritten.Success?
      && |asWritten.value.bindings| == 3
      && asWritten.value.bindings[1] == Binding("aby", GetLong, 1)
      && asWritten.value.bindings[2] == Binding("c", GetLong, 1)
    ensures var threaded := ParseColumns(SampleHelpers(), SampleColumns(), None, 0);
      && threaded.Success?
      && [threaded.value.parsed.bindings[0].index, threaded.value.parsed.bindings[1].index,
          threaded.value.parsed.bindings[2].index] == [0, 1, 2]
  {
    SampleAsWritten();
    SampleThreaded();
  }

  /** The arguments of a constructor literal, in order. */
  function Arguments(pieces: seq<Piece>): seq<Piece>
  {
    if |pieces| == 0 then []
    else (if pieces[0].CtorArg? then [pieces[0]] else []) + Arguments(pieces[1..])
  }

  lemma {:induction false} ArgumentsAppend(a: seq<Piece>, b: seq<Piece>)
    ensures Arguments(a + b) == Arguments(a) + Arguments(b)
    decreases |a|
  {
    if |a| == 0 {
      assert a + b == b;
    } else {
      assert (a + b)[1..] == a[1..] + b;
      ArgumentsAppend(a[1..], b);
    }
  }

  /** The argument each leaf should receive: its local, decoded by its nullability and adapter. */
  function LeafArguments(h: Helpers, leaves: seq<Leaf>): seq<Piece>
  {
    if |leaves| == 0 then []
    else
      var c := leaves[0].column;
      [CtorArg(leaves[0].name, PropertyDecoding(h, c.typeSpec.isNullable, leaves[0].name, c.typeAffinity, c.typeSpec.declaration))]
      + LeafArguments(h, leaves[1..])
  }

  lemma {:induction false} LeafArgumentsAppend(h: Helpers, a: seq<Leaf>, b: seq<Leaf>)
    ensures LeafArguments(h, a + b) == LeafArguments(h, a) + LeafArguments(h, b)
    decreases |a|
  {
    if |a| == 0 {
      assert a + b == b;
    } else {
      assert (a + b)[1..] == a[1..] + b;
      LeafArgumentsAppend(h, a[1..], b);
    }
  }

  /** The initialisation pass passes one argument per stored column, in the canonical order,
      naming the same local the parsing pass binds for that column. */
  lemma {:induction false} InitArgumentsFollowLeaves(h: Helpers, cols: seq<ColumnSpec>, parent: Option<string>)
    ensures Arguments(ColumnInitialization(h, cols, parent)) == LeafArguments(h, Leaves(h.toPascalCase, cols, parent))
    decreases cols, 1
  {
    if |cols| > 0 {
      if cols[0].typeSpec.dataType.ClassColumn? {
        PlainArguments(h, cols, parent);
      } else {
        EmbeddedArguments(h, cols, parent);
      }
    }
  }

  /** The statement of `InitArgumentsFollowLeaves`, for its two cases. */
  predicate ArgumentsFollow(h: Helpers, cols: seq<ColumnSpec>, parent: Option<string>) {
    Arguments(ColumnInitialization(h, cols, parent)) == LeafArguments(h, Leaves(h.toPascalCase, cols, parent))
  }

  lemma {:induction false} PlainArguments(h: Helpers, cols: seq<ColumnSpec>, parent: Option<string>)
    requires |cols| > 0 && cols[0].typeSpec.dataType.ClassColumn?
    ensures ArgumentsFollow(h, cols, parent)
    decreases cols, 0
  {
    var column := cols[0];
    var access := PropertyAccess(h.toPascalCase, parent, column.propertyName);
    var tail := ColumnInitialization(h, cols[1..], parent);
    var tailLeaves := Leaves(h.toPascalCase, cols[1..], parent);
    var arg := CtorArg(access, PropertyDecoding(h, column.typeSpec.isNullable, access, column.typeAffinity, column.typeSpec.declaration));
    assert ColumnInitialization(h, cols, parent) == [arg] + tail;
    assert Leaves(h.toPascalCase, cols, parent) == [Leaf(access, column)] + tailLeaves;
    InitArgumentsFollowLeaves(h, cols[1..], parent);
    ArgumentsAppend([arg], tail);
    LeafArgumentsAppend(h, [Leaf(access, column)], tailLeaves);
    assert [Leaf(access, column)][1..] == [];
  }

  lemma {:induction false} EmbeddedArguments(h: Helpers, cols: seq<ColumnSpec>, parent: Option<string>)
    requires |cols| > 0 && cols[0].typeSpec.dataType.Embedded?
    ensures ArgumentsFollow(h, cols, parent)
    decreases cols, 0
  {
    var column := cols[0];
    var sub := column.typeSpec.dataType.columns;
    var access := PropertyAccess(h.toPascalCase, parent, column.propertyName);
    var tail := ColumnInitialization(h, cols[1..], parent);
    var tailLeaves := Leaves(h.toPascalCase, cols[1..], parent);
    var literal := EntityInitialization(h, column.typeSpec.declaration, sub, Some(access));
    var subLeaves := Leaves(h.toPascalCase, sub, Some(access));
    assert ColumnInitialization(h, cols, parent) == literal + tail;
    assert Leaves(h.toPascalCase, cols, parent) == subLeaves + tailLeaves;
    InitArgumentsFollowLeaves(h, cols[1..], parent);
    EntityInitializationArguments(h, column.typeSpec.declaration, sub, Some(access));
    ArgumentsAppend(literal, tail);
    LeafArgumentsAppend(h, subLeaves, tailLeaves);
  }

  /** A constructor literal carries exactly the canonical arguments of its columns. */
  lemma {:induction false} EntityInitializationArguments(h: Helpers, declaration: ClassDecl, cols: seq<ColumnSpec>, parent: Option<string>)
    ensures Arguments(EntityInitialization(h, declaration, cols, parent)) == LeafArguments(h, Leaves(h.toPascalCase, cols, parent))
    decreases cols, 2
  {
    var nested := !IsNullOrBlank(parent);
    var open := CtorOpen(h.className(declaration), !nested);
    var middle := ColumnInitialization(h, cols, parent);
    assert EntityInitialization(h, declaration, cols, parent) == [open] + middle + [CtorClose(nested)];
    InitArgumentsFollowLeaves(h, cols, parent);
    ArgumentsAppend([open] + middle, [CtorClose(nested)]);
    ArgumentsAppend([open], middle);
    assert Arguments([open]) == [];
    assert Arguments([CtorClose(nested)]) == [];
  }

  /** An embedded group reached by the depth-first walk: the access path it is reached through,
      its declaration and its own columns. */
  datatype Group = Group(path: string, declaration: ClassDecl, columns: seq<ColumnSpec>)

  /** The embedded groups under `cols`, depth-first, each before the groups it contains. */
  function Groups(pascal: string -> string, cols: seq<ColumnSpec>, parent: Option<string>): seq<Group>
    decreases cols
  {
    if |cols| == 0 then []
    else
      var access := PropertyAccess(pascal, parent, cols[0].propertyName);
      (match cols[0].typeSpec.dataType
       case ClassColumn => []
       case Embedded(sub) => [Group(access, cols[0].typeSpec.declaration, sub)] + Groups(pascal, sub, Some(access)))
      + Groups(pascal, cols[1..], parent)
  }

  /** The constructor openings of a piece sequence, in order. */
  function Opens(pieces: seq<Piece>): seq<Piece>
  {
    if |pieces| == 0 then []
    else (if pieces[0].CtorOpen? then [pieces[0]] else []) + Opens(pieces[1..])
  }

  lemma {:induction false} OpensAppend(a: seq<Piece>, b: seq<Piece>)
    ensures Opens(a + b) == Opens(a) + Opens(b)
    decreases |a|
  {
    if |a| == 0 {
      assert a + b == b;
    } else {
      assert (a + b)[1..] == a[1..] + b;
      OpensAppend(a[1..], b);
    }
  }

  /** Each opening is one block of the literal's control structure. */
  lemma {:induction false} OpensAreBegins(pieces: seq<Piece>)
    ensures CountBegins(Nesting(pieces)) == |Opens(pieces)|
    decreases |pieces|
  {
    if |pieces| > 0 {
      OpensAreBegins(pieces[1..]);
    }
  }

  /** The opening each group should receive: its class, with `return ` only for a blank path. */
  function GroupOpens(h: Helpers, groups: seq<Group>): (r: seq<Piece>)
    ensures |r| == |groups|
  {
    if |groups| == 0 then []
    else [CtorOpen(h.className(groups[0].declaration), IsBlank(groups[0].path))] + GroupOpens(h, groups[1..])
  }

  lemma {:induction false} GroupOpensAppend(h: Helpers, a: seq<Group>, b: seq<Group>)
    ensures GroupOpens(h, a + b) == GroupOpens(h, a) + GroupOpens(h, b)
    decreases |a|
  {
    if |a| == 0 {
      assert a + b == b;
    } else {
      assert (a + b)[1..] == a[1..] + b;
      GroupOpensAppend(h, a[1..], b);
    }
  }

  /** The initialisation pass opens one nested constructor literal per embedded group, in
      depth-first order, each naming the group's class; so the arguments sit inside exactly
      as many blocks as there are groups. */
  lemma {:induction false} InitOpensFollowGroups(h: Helpers, cols: seq<ColumnSpec>, parent: Option<string>)
    ensures Opens(ColumnInitialization(h, cols, parent)) == GroupOpens(h, Groups(h.toPascalCase, cols, parent))
    ensures CountBegins(Nesting(ColumnInitialization(h, cols, parent))) == |Groups(h.toPascalCase, cols, parent)|
    decreases cols, 1
  {
    if |cols| > 0 {
      if cols[0].typeSpec.dataType.ClassColumn? {
        PlainOpens(h, cols, parent);
      } else {
        EmbeddedOpens(h, cols, parent);
      }
    }
    OpensAreBegins(ColumnInitialization(h, cols, parent));
  }

  /** The first statement of `InitOpensFollowGroups`, for its two cases. */
  predicate OpensFollow(h: Helpers, cols: seq<ColumnSpec>, parent: Option<string>) {
    Opens(ColumnInitialization(h, cols, parent)) == GroupOpens(h, Groups(h.toPascalCase, cols, parent))
  }

  lemma {:induction false} PlainOpens(h: Helpers, cols: seq<ColumnSpec>, parent: Option<string>)
    requires |cols| > 0 && cols[0].typeSpec.dataType.ClassColumn?
    ensures OpensFollow(h, cols, parent)
    decreases cols, 0
  {
    InitPlainStep(h, cols, parent);
    var pieces := ColumnInitialization(h, cols, parent);
    var tail := ColumnInitialization(h, cols[1..], parent);
    var x := pieces[..1];
    assert pieces == x + tail;
    assert Opens(x) == [] by { assert x[0].CtorArg? && x[1..] == []; }
    assert Groups(h.toPascalCase, cols, parent) == Groups(h.toPascalCase, cols[1..], parent);
    InitOpensFollowGroups(h, cols[1..], parent);
    OpensAppend(x, tail);
  }

  lemma {:induction false} EmbeddedOpens(h: Helpers, cols: seq<ColumnSpec>, parent: Option<string>)
    requires |cols| > 0 && cols[0].typeSpec.dataType.Embedded?
    ensures OpensFollow(h, cols, parent)
    decreases cols, 0
  {
    var column := cols[0];
    var sub := column.typeSpec.dataType.columns;
    var access := PropertyAccess(h.toPascalCase, parent, column.propertyName);
    var tail := ColumnInitialization(h, cols[1..], parent);
    var literal := EntityInitialization(h, column.typeSpec.declaration, sub, Some(access));
    var g := Group(access, column.typeSpec.declaration, sub);
    assert ColumnInitialization(h, cols, parent) == literal + tail;
    assert Groups(h.toPascalCase, cols, parent)
      == [g] + Groups(h.toPascalCase, sub, Some(access)) + Groups(h.toPascalCase, cols[1..], parent);
    InitOpensFollowGroups(h, cols[1..], parent);
    EntityInitializationOpens(h, column.typeSpec.declaration, sub, Some(access));
    OpensAppend(literal, tail);
    GroupOpensAppend(h, [g] + Groups(h.toPascalCase, sub, Some(access)), Groups(h.toPascalCase, cols[1..], parent));
    GroupOpensAppend(h, [g], Groups(h.toPascalCase, sub, Some(access)));
    assert [g][1..] == [];
  }

  /** A constructor literal opens its own class first, then one literal per group it contains. */
  lemma {:induction false} EntityInitializationOpens(h: Helpers, declaration: ClassDecl, cols: seq<ColumnSpec>, parent: Option<string>)
    ensures Opens(EntityInitialization(h, declaration, cols, parent))
      == [CtorOpen(h.className(declaration), IsNullOrBlank(parent))] + GroupOpens(h, Groups(h.toPascalCase, cols, parent))
    decreases cols, 2
  {
    var nested := !IsNullOrBlank(parent);
    var open := CtorOpen(h.className(declaration), !nested);
    var middle := ColumnInitialization(h, cols, parent);
    assert EntityInitialization(h, declaration, cols, parent) == [open] + middle + [CtorClose(nested)];
    InitOpensFollowGroups(h, cols, parent);
    OpensAppend([open] + middle, [CtorClose(nested)]);
    OpensAppend([open], middle);
    assert Opens([open]) == [open];
    assert Opens([CtorClose(nested)]) == [];
  }

  /** No group is reached through a blank access path. */
  predicate PathsNotBlank(groups: seq<Group>) {
    forall k :: 0 <= k < |groups| ==> !IsBlank(groups[k].path)
  }

  lemma PathsNotBlankAppend(a: seq<Group>, b: seq<Group>)
    requires PathsNotBlank(a) && PathsNotBlank(b)
    ensures PathsNotBlank(a + b)
  {
    forall k | |a| <= k < |a| + |b| ensures !IsBlank((a + b)[k].path) {
      assert (a + b)[k] == b[k - |a|];
    }
  }

  /** Every column has a non-blank property name. */
  predicate NamesNotBlank(cols: seq<ColumnSpec>) {
    forall k :: 0 <= k < |cols| ==> !IsBlank(cols[k].propertyName)
  }

  lemma NamesNotBlankTail(cols: seq<ColumnSpec>)
    requires |cols| > 0 && NamesNotBlank(cols)
    ensures !IsBlank(cols[0].propertyName) && NamesNotBlank(cols[1..])
  {
    forall k | 0 <= k < |cols| - 1 ensures !IsBlank(cols[1..][k].propertyName) {
      assert cols[1..][k] == cols[k + 1];
    }
  }

  /** Every group's opening is a nested one (no `return `) whenever the walk starts under a
      non-blank path, or at the top level with non-blank property names. */
  lemma {:induction false} GroupsAreNested(pascal: string -> string, cols: seq<ColumnSpec>, parent: Option<string>)
    requires !IsNullOrBlank(parent) || NamesNotBlank(cols)
    ensures PathsNotBlank(Groups(pascal, cols, parent))
    decreases cols
  {
    if |cols| > 0 {
      var access := PropertyAccess(pascal, parent, cols[0].propertyName);
      if !IsNullOrBlank(parent) {
        NotBlankExtends(parent.value, pascal(cols[0].propertyName));
      } else {
        NamesNotBlankTail(cols);
      }
      GroupsAreNested(pascal, cols[1..], parent);
      var tail := Groups(pascal, cols[1..], parent);
      match cols[0].typeSpec.dataType {
        case ClassColumn =>
          assert Groups(pascal, cols, parent) == [] + tail;
        case Embedded(sub) =>
          var g := [Group(access, cols[0].typeSpec.declaration, sub)];
          GroupsAreNested(pascal, sub, Some(access));
          var inner := Groups(pascal, sub, Some(access));
          assert Groups(pascal, cols, parent) == g + inner + tail;
          PathsNotBlankAppend(g, inner);
          PathsNotBlankAppend(g + inner, tail);
      }
    }
  }

  /** The k-th group's nested literal appears whole inside the initialisation pass, after
      exactly k earlier openings: it opens the group's class, carries exactly the arguments of
      the group's stored columns, and closes with `),`. */
  lemma {:induction false} GroupLiteralAt(h: Helpers, cols: seq<ColumnSpec>, parent: Option<string>, k: nat)
    returns (before: seq<Piece>, after: seq<Piece>)
    requires k < |Groups(h.toPascalCase, cols, parent)|
    ensures var g := Groups(h.toPascalCase, cols, parent)[k];
      && LiteralAt(ColumnInitialization(h, cols, parent), GroupLiteral(h, g), k, before, after)
      && GroupLiteral(h, g)[0] == CtorOpen(h.className(g.declaration), IsBlank(g.path))
      && GroupLiteral(h, g)[|GroupLiteral(h, g)| - 1] == CtorClose(!IsBlank(g.path))
      && Arguments(GroupLiteral(h, g)) == LeafArguments(h, Leaves(h.toPascalCase, g.columns, Some(g.path)))
      && Balanced(Nesting(GroupLiteral(h, g)))
    decreases cols, 1
  {
    var g := Groups(h.toPascalCase, cols, parent)[k];
    EntityInitializationArguments(h, g.declaration, g.columns, Some(g.path));
    EntityInitializationBalanced(h, g.declaration, g.columns, Some(g.path));
    if cols[0].typeSpec.dataType.ClassColumn? {
      before, after := PlainLiteralAt(h, cols, parent, k);
    } else {
      var g0 := HeadGroup(h.toPascalCase, cols, parent);
      if k == 0 {
        before, after := HeadLiteralAt(h, cols, parent);
      } else if k <= |Groups(h.toPascalCase, g0.columns, Some(g0.path))| {
        before, after := InnerLiteralAt(h, cols, parent, k);
      } else {
        before, after := TailLiteralAt(h, cols, parent, k);
      }
    }
  }

  /** `literal` sits in `pieces` after `before`, which holds exactly `k` openings. */
  predicate LiteralAt(pieces: seq<Piece>, literal: seq<Piece>, k: nat, before: seq<Piece>, after: seq<Piece>) {
    pieces == before + literal + after && |Opens(before)| == k
  }

  /** The nested literal of a group. */
  function GroupLiteral(h: Helpers, g: Group): seq<Piece>
  {
    EntityInitialization(h, g.declaration, g.columns, Some(g.path))
  }

  /** Pieces in front move a located literal back by their own openings. */
  lemma ShiftLiteral(x: seq<Piece>, pieces: seq<Piece>, literal: seq<Piece>, k: nat, before: seq<Piece>, after: seq<Piece>)
    requires LiteralAt(pieces, literal, k, before, after)
    ensures LiteralAt(x + pieces, literal, |Opens(x)| + k, x + before, after)
  {
    assert x + pieces == (x + before) + literal + after by {
      assert pieces == before + literal + after;
      SeqAssoc(x, before, literal, after);
    }
    OpensAppend(x, before);
  }

  lemma SeqAssoc<T>(x: seq<T>, b: seq<T>, l: seq<T>, a: seq<T>)
    ensures x + (b + l + a) == (x + b) + l + a
  {
  }

  /** Pieces behind a located literal leave its place unchanged. */
  lemma ExtendLiteral(pieces: seq<Piece>, y: seq<Piece>, literal: seq<Piece>, k: nat, before: seq<Piece>, after: seq<Piece>)
    requires LiteralAt(pieces, literal, k, before, after)
    ensures LiteralAt(pieces + y, literal, k, before, after + y)
  {
    SeqAssocRight(before, literal, after, y);
  }

  lemma SeqAssocRight<T>(b: seq<T>, l: seq<T>, a: seq<T>, y: seq<T>)
    ensures b + l + a + y == b + l + (a + y)
  {
  }

  /** One unfolding of `ColumnInitialization` over a plain column: one argument, then the rest. */
  lemma InitPlainStep(h: Helpers, cols: seq<ColumnSpec>, parent: Option<string>)
    requires |cols| > 0 && cols[0].typeSpec.dataType.ClassColumn?
    ensures var access := PropertyAccess(h.toPascalCase, parent, cols[0].propertyName);
      var c := cols[0];
      ColumnInitialization(h, cols, parent)
        == [CtorArg(access, PropertyDecoding(h, c.typeSpec.isNullable, access, c.typeAffinity, c.typeSpec.declaration))]
           + ColumnInitialization(h, cols[1..], parent)
  {
  }

  /** One unfolding of `ColumnInitialization` over an embedded group: its literal, then the rest. */
  lemma InitEmbeddedStep(h: Helpers, cols: seq<ColumnSpec>, parent: Option<string>)
    requires |cols| > 0 && cols[0].typeSpec.dataType.Embedded?
    ensures var access := PropertyAccess(h.toPascalCase, parent, cols[0].propertyName);
      var g := Group(access, cols[0].typeSpec.declaration, cols[0].typeSpec.dataType.columns);
      && ColumnInitialization(h, cols, parent) == GroupLiteral(h, g) + ColumnInitialization(h, cols[1..], parent)
      && GroupLiteral(h, g)
           == [CtorOpen(h.className(g.declaration), IsBlank(access))] + ColumnInitialization(h, g.columns, Some(access))
              + [CtorClose(!IsBlank(access))]
      && Groups(h.toPascalCase, cols, parent)
           == [g] + Groups(h.toPascalCase, g.columns, Some(access)) + Groups(h.toPascalCase, cols[1..], parent)
  {
  }

  lemma {:induction false} PlainLiteralAt(h: Helpers, cols: seq<ColumnSpec>, parent: Option<string>, k: nat)
    returns (before: seq<Piece>, after: seq<Piece>)
    requires |cols| > 0 && cols[0].typeSpec.dataType.ClassColumn?
    requires k < |Groups(h.toPascalCase, cols, parent)|
    ensures LiteralAt(ColumnInitialization(h, cols, parent), GroupLiteral(h, Groups(h.toPascalCase, cols, parent)[k]), k, before, after)
    decreases cols, 0
  {
    InitPlainStep(h, cols, parent);
    var pieces := ColumnInitialization(h, cols, parent);
    var tail := ColumnInitialization(h, cols[1..], parent);
    var x := pieces[..1];
    assert pieces == x + tail;
    assert Opens(x) == [] by { assert x[0].CtorArg? && x[1..] == []; }
    assert Groups(h.toPascalCase, cols, parent) == Groups(h.toPascalCase, cols[1..], parent);
    var b, a := GroupLiteralAt(h, cols[1..], parent, k);
    ShiftLiteral(x, tail, GroupLiteral(h, Groups(h.toPascalCase, cols, parent)[k]), k, b, a);
    before, after := x + b, a;
  }

  /** The group an embedded first column opens. */
  function HeadGroup(pascal: string -> string, cols: seq<ColumnSpec>, parent: Option<string>): Group
    requires |cols| > 0 && cols[0].typeSpec.dataType.Embedded?
  {
    Group(PropertyAccess(pascal, parent, cols[0].propertyName), cols[0].typeSpec.declaration, cols[0].typeSpec.dataType.columns)
  }

  lemma {:induction false} HeadLiteralAt(h: Helpers, cols: seq<ColumnSpec>, parent: Option<string>)
    returns (before: seq<Piece>, after: seq<Piece>)
    requires |cols| > 0 && cols[0].typeSpec.dataType.Embedded?
    ensures |Groups(h.toPascalCase, cols, parent)| > 0
    ensures LiteralAt(ColumnInitialization(h, cols, parent), GroupLiteral(h, Groups(h.toPascalCase, cols, parent)[0]), 0, before, after)
  {
    var g0 := HeadGroup(h.toPascalCase, cols, parent);
    InitEmbeddedStep(h, cols, parent);
    assert Groups(h.toPascalCase, cols, parent)[0] == g0;
    before, after := [], ColumnInitialization(h, cols[1..], parent);
    assert Opens([]) == [];
  }

  lemma {:induction false} InnerLiteralAt(h: Helpers, cols: seq<ColumnSpec>, parent: Option<string>, k: nat)
    returns (before: seq<Piece>, after: seq<Piece>)
    requires |cols| > 0 && cols[0].typeSpec.dataType.Embedded?
    requires var g0 := HeadGroup(h.toPascalCase, cols, parent);
      1 <= k <= |Groups(h.toPascalCase, g0.columns, Some(g0.path))|
    ensures k < |Groups(h.toPascalCase, cols, parent)|
    ensures LiteralAt(ColumnInitialization(h, cols, parent), GroupLiteral(h, Groups(h.toPascalCase, cols, parent)[k]), k, before, after)
    decreases cols, 0
  {
    var g0 := HeadGroup(h.toPascalCase, cols, parent);
    var access := g0.path;
    InitEmbeddedStep(h, cols, parent);
    var inner := Groups(h.toPascalCase, g0.columns, Some(access));
    assert Groups(h.toPascalCase, cols, parent)[k] == inner[k - 1];
    var tail := ColumnInitialization(h, cols[1..], parent);
    var open := [CtorOpen(h.className(g0.declaration), IsBlank(access))];
    var middle := ColumnInitialization(h, g0.columns, Some(access));
    var close := [CtorClose(!IsBlank(access))];
    assert Opens(open) == open by { assert open[1..] == []; }
    var b, a := GroupLiteralAt(h, g0.columns, Some(access), k - 1);
    ShiftLiteral(open, middle, GroupLiteral(h, inner[k - 1]), k - 1, b, a);
    ExtendLiteral(open + middle, close + tail, GroupLiteral(h, inner[k - 1]), k, open + b, a);
    SeqAssocRight(open, middle, close, tail);
    before, after := open + b, a + (close + tail);
  }

  lemma {:induction false} TailLiteralAt(h: Helpers, cols: seq<ColumnSpec>, parent: Option<string>, k: nat)
    returns (before: seq<Piece>, after: seq<Piece>)
    requires |cols| > 0 && cols[0].typeSpec.dataType.Embedded?
    requires var g0 := HeadGroup(h.toPascalCase, cols, parent);
      1 + |Groups(h.toPascalCase, g0.columns, Some(g0.path))| <= k < |Groups(h.toPascalCase, cols, parent)|
    ensures LiteralAt(ColumnInitialization(h, cols, parent), GroupLiteral(h, Groups(h.toPascalCase, cols, parent)[k]), k, before, after)
    decreases cols, 0
  {
    var g0 := HeadGroup(h.toPascalCase, cols, parent);
    InitEmbeddedStep(h, cols, parent);
    var inner := Groups(h.toPascalCase, g0.columns, Some(g0.path));
    var tailGroups := Groups(h.toPascalCase, cols[1..], parent);
    var j := k - 1 - |inner|;
    assert Groups(h.toPascalCase, cols, parent)[k] == tailGroups[j];
    var literal := GroupLiteral(h, g0);
    var tail := ColumnInitialization(h, cols[1..], parent);
    var b, a := GroupLiteralAt(h, cols[1..], parent, j);
    EntityInitializationOpens(h, g0.declaration, g0.columns, Some(g0.path));
    assert |Opens(literal)| == 1 + |inner|;
    ShiftLiteral(literal, tail, GroupLiteral(h, tailGroups[j]), j, b, a);
    before, after := literal + b, a;
  }

  lemma {:induction false} LeafArgumentsShape(h: Helpers, leaves: seq<Leaf>)
    ensures |LeafArguments(h, leaves)| == |leaves|
    ensures forall k :: 0 <= k < |leaves| ==>
      var c := leaves[k].column;
      LeafArguments(h, leaves)[k] == CtorArg(leaves[k].name,
        PropertyDecoding(h, c.typeSpec.isNullable, leaves[k].name, c.typeAffinity, c.typeSpec.declaration))
    decreases |leaves|
  {
    if |leaves| > 0 {
      LeafArgumentsShape(h, leaves[1..]);
      var rest := LeafArguments(h, leaves[1..]);
      forall k | 1 <= k < |leaves|
        ensures LeafArguments(h, leaves)[k] == rest[k - 1]
      {
      }
    }
  }

  lemma {:induction false} LeafAdapterRegistered(h: Helpers, leaves: seq<Leaf>, k: nat)
    requires k < |leaves| && AdapterFor(h, leaves[k].column).Some?
    ensures AdapterFor(h, leaves[k].column).value in LeafAdapters(h, leaves)
    decreases k
  {
    if k > 0 {
      LeafAdapterRegistered(h, leaves[1..], k - 1);
    }
  }

  /** The corrected mapper pairs its two halves: the lines after its parse statements are the
      constructor literal, whose k-th argument reads the local the k-th parse statement binds
      from position k, and an argument decoded through an adapter uses one the mapper
      registers. */
  lemma ParseAndInitAgree(h: Helpers, entity: EntitySpec)
    ensures var m := EntityParseFunction(h, entity);
      var init := EntityInitialization(h, entity.declaration, entity.columns, None);
      var args := Arguments(init);
      var leaves := Leaves(h.toPascalCase, entity.columns, None);
      m.Success? ==>
        && |args| == |leaves|
        && m.value.body[|leaves|..] == PieceLines(init)
        && forall k :: 0 <= k < |args| ==>
             && args[k].CtorArg?
             && HasPrefix(args[k].expr, args[k].binding)
             && ColumnParser(h, leaves[k].column).Success?
             && m.value.body[k] == BindingLine(Binding(args[k].binding, ColumnParser(h, leaves[k].column).value.getter, k))
             && (AdapterFor(h, leaves[k].column).Some? ==> AdapterFor(h, leaves[k].column).value in m.value.adapters)
  {
    var leaves := Leaves(h.toPascalCase, entity.columns, None);
    EntityInitializationArguments(h, entity.declaration, entity.columns, None);
    LeafArgumentsShape(h, leaves);
    forall k | 0 <= k < |leaves| && AdapterFor(h, leaves[k].column).Some?
      ensures AdapterFor(h, leaves[k].column).value in LeafAdapters(h, leaves)
    {
      LeafAdapterRegistered(h, leaves, k);
    }
  }

  /** The mapper as written pairs its halves the same way: the k-th constructor argument reads
      the local the k-th parse statement binds, and an argument decoded through an adapter uses
      one the mapper registers. Only the positions read differ from the corrected mapper. */
  lemma ParseAndInitAgreeAsWritten(h: Helpers, entity: EntitySpec)
    ensures var m := EntityParseFunctionAsWritten(h, entity);
      var init := EntityInitialization(h, entity.declaration, entity.columns, None);
      var args := Arguments(init);
      var leaves := Leaves(h.toPascalCase, entity.columns, None);
      var positions := AsWrittenPositions(entity.columns, 0);
      m.Success? ==>
        && |args| == |leaves| == |positions|
        && m.value.body[|leaves|..] == PieceLines(init)
        && forall k :: 0 <= k < |args| ==>
             && args[k].CtorArg?
             && HasPrefix(args[k].expr, args[k].binding)
             && ColumnParser(h, leaves[k].column).Success?
             && m.value.body[k] == BindingLine(Binding(args[k].binding, ColumnParser(h, leaves[k].column).value.getter, positions[k]))
             && (AdapterFor(h, leaves[k].column).Some? ==> AdapterFor(h, leaves[k].column).value in m.value.adapters)
  {
    var leaves := Leaves(h.toPascalCase, entity.columns, None);
    EntityInitializationArguments(h, entity.declaration, entity.columns, None);
    LeafArgumentsShape(h, leaves);
    forall k | 0 <= k < |leaves| && AdapterFor(h, leaves[k].column).Some?
      ensures AdapterFor(h, leaves[k].column).value in LeafAdapters(h, leaves)
    {
      LeafAdapterRegistered(h, leaves, k);
    }
  }

  /** The corrected mapper, unfolded once. */
  lemma ThreadedMapper(h: Helpers, entity: EntitySpec)
    ensures var threaded := ParseColumns(h, entity.columns, None, 0);
      && EntityParseFunction(h, entity).Success? == threaded.Success?
      && (threaded.Success? ==>
            EntityParseFunction(h, entity).value
              == Mapper(BindingLines(threaded.value.parsed.bindings)
                          + PieceLines(EntityInitialization(h, entity.declaration, entity.columns, None)),
                        threaded.value.parsed.adapters))
  {
  }

  /** The mapper as written, unfolded once. */
  lemma WrittenMapper(h: Helpers, entity: EntitySpec)
    ensures var written := ParseColumnsAsWritten(h, entity.columns, None, 0);
      && EntityParseFunctionAsWritten(h, entity).Success? == written.Success?
      && (written.Success? ==>
            EntityParseFunctionAsWritten(h, entity).value
              == Mapper(BindingLines(written.value.bindings)
                          + PieceLines(EntityInitialization(h, entity.declaration, entity.columns, None)),
                        written.value.adapters))
  {
  }

  /** On entities whose embedded groups are aligned at every depth, the mapper as written is
      exactly the corrected mapper. */
  lemma AsWrittenMapperWhenAligned(h: Helpers, entity: EntitySpec)
    requires IndexAligned(entity.columns)
    ensures EntityParseFunctionAsWritten(h, entity).Success? == EntityParseFunction(h, entity).Success?
    ensures EntityParseFunction(h, entity).Success? ==>
      EntityParseFunctionAsWritten(h, entity).value == EntityParseFunction(h, entity).value
  {
    AsWrittenMatchesThreaded(h, entity.columns, None, 0);
    ThreadedMapper(h, entity);
    WrittenMapper(h, entity);
  }

  /** The last two stored columns of `a{b{x, y}}, c`, in canonical order, are `aby` and `c`,
      both read with `getLong`. */
  lemma SampleLeaves()
    ensures var h := SampleHelpers();
      var leaves := Leaves(h.toPascalCase, SampleColumns(), None);
      && |leaves| == 3
      && leaves[1].name == "aby" && ColumnParser(h, leaves[1].column) == Success(Parser(GetLong, None))
      && leaves[2].name == "c" && ColumnParser(h, leaves[2].column) == Success(Parser(GetLong, None))
  {
    var h := SampleHelpers();
    SampleAsWritten();
    ParseColumnsAsWrittenCorrect(h, SampleColumns(), None, 0);
    var leaves := Leaves(h.toPascalCase, SampleColumns(), None);
    assert AdapterFor(h, leaves[1].column).None? && AdapterFor(h, leaves[2].column).None?;
  }

  /** The positions the as-written pass reads for `a{b{x, y}}, c`. */
  lemma SamplePositions()
    ensures AsWrittenPositions(SampleColumns(), 0) == [0, 1, 1]
  {
    var cols := SampleColumns();
    var b := EmbeddedColumn("b", [LongColumn("x"), LongColumn("y")]);
    assert cols[1..] == [LongColumn("c")];
    assert cols[0].typeSpec.dataType.columns == [b];
    assert [b][1..] == [];
    assert [LongColumn("x"), LongColumn("y")][1..] == [LongColumn("y")];
    assert AsWrittenPositions([LongColumn("y")], 1) == [1];
    assert AsWrittenPositions([LongColumn("x"), LongColumn("y")], 0) == [0, 1];
    assert AsWrittenPositions([b], 0) == [0, 1];
    assert AsWrittenPositions([LongColumn("c")], 1) == [1];
  }

  /** The generated mapper for the entity `a{b{x, y}}, c` reads `aby` and `c` both from
      position 1; the corrected mapper reads `c` from position 2. */
  lemma NestedEmbeddingMapper()
    ensures var e := EntitySpec(ClassDecl("E", Some("E")), SampleColumns());
      var written := EntityParseFunctionAsWritten(SampleHelpers(), e);
      var threaded := EntityParseFunction(SampleHelpers(), e);
      && written.Success? && |written.value.body| > 2
      && written.value.body[1] == BindingLine(Binding("aby", GetLong, 1))
      && written.value.body[2] == BindingLine(Binding("c", GetLong, 1))
      && threaded.Success? && |threaded.value.body| > 2
      && threaded.value.body[2] == BindingLine(Binding("c", GetLong, 2))
  {
    NestedEmbeddingReusesIndex();
    SampleParsers();
    SampleLeaves();
    SamplePositions();
  }

  /** The constructor literal as control structure: each opening parenthesis opens a block and
      each closing one closes it. */
  function Nesting(pieces: seq<Piece>): (r: seq<Line>)
    ensures |r| == |pieces|
  {
    if |pieces| == 0 then []
    else
      [match pieces[0]
       case CtorOpen(t, _) => Begin(t)
       case CtorArg(_, expr) => Stmt(expr)
       case CtorClose(_) => End]
      + Nesting(pieces[1..])
  }

  lemma {:induction false} NestingAppend(a: seq<Piece>, b: seq<Piece>)
    ensures Nesting(a + b) == Nesting(a) + Nesting(b)
    decreases |a|
  {
    if |a| == 0 {
      assert a + b == b;
    } else {
      assert (a + b)[1..] == a[1..] + b;
      NestingAppend(a[1..], b);
    }
  }

  /** Every constructor literal the initialisation pass opens, it closes, innermost first. */
  lemma {:induction false} ColumnInitializationBalanced(h: Helpers, cols: seq<ColumnSpec>, parent: Option<string>)
    ensures Balanced(Nesting(ColumnInitialization(h, cols, parent)))
    decreases cols, 0
  {
    if |cols| > 0 {
      var column := cols[0];
      var access := PropertyAccess(h.toPascalCase, parent, column.propertyName);
      var tail := ColumnInitialization(h, cols[1..], parent);
      ColumnInitializationBalanced(h, cols[1..], parent);
      match column.typeSpec.dataType
      case ClassColumn =>
        var arg := CtorArg(access, PropertyDecoding(h, column.typeSpec.isNullable, access, column.typeAffinity, column.typeSpec.declaration));
        NestingAppend([arg], tail);
        StatementsBalanced(Nesting([arg]));
        BalancedConcat(Nesting([arg]), Nesting(tail));
      case Embedded(sub) =>
        var literal := EntityInitialization(h, column.typeSpec.declaration, sub, Some(access));
        EntityInitializationBalanced(h, column.typeSpec.declaration, sub, Some(access));
        NestingAppend(literal, tail);
        BalancedConcat(Nesting(literal), Nesting(tail));
    }
  }

  lemma {:induction false} EntityInitializationBalanced(h: Helpers, declaration: ClassDecl, cols: seq<ColumnSpec>, parent: Option<string>)
    ensures Balanced(Nesting(EntityInitialization(h, declaration, cols, parent)))
    decreases cols, 1
  {
    var nested := !IsNullOrBlank(parent);
    var open := CtorOpen(h.className(declaration), !nested);
    var middle := ColumnInitialization(h, cols, parent);
    ColumnInitializationBalanced(h, cols, parent);
    assert EntityInitialization(h, declaration, cols, parent) == [open] + middle + [CtorClose(nested)];
    NestingAppend([open] + middle, [CtorClose(nested)]);
    NestingAppend([open], middle);
    assert Nesting([open]) == [Begin(h.className(declaration))];
    assert Nesting([CtorClose(nested)]) == [End];
    BalancedWrap(Begin(h.className(declaration)), Nesting(middle));
  }
}

=== FILE: specs.dfy ===
/** The resolved specification tree the generators walk: entities with their (possibly
    embedded) columns, data-type shapes, compounds with relations, and DAO functions.
    Every value is immutable; compounds are acyclic because inductive datatypes are. */
module Specs {
  import opened Wrappers

  /** `ColumnInfo.TypeAffinity`. */
  datatype TypeAffinity = INTEGER | NUMERIC | REAL | TEXT | NONE | UNDEFINED

  /** A class declaration; the generator reads its qualified name (null for local and
      anonymous classes) and hands it to helpers that are not part of this model. */
  datatype ClassDecl = ClassDecl(simpleName: string, qualifiedName: Option<string>)

  /** A `ColumnAdapterReference`, compared by identity. */
  datatype AdapterRef = AdapterRef(key: string)

  /** One column of an entity. `propertyName` is the Kotlin property, `name` the SQL column
      name; the declaration's class is `typeSpec.declaration`. */
  datatype ColumnSpec = ColumnSpec(
    propertyName: string,
    name: string,
    typeAffinity: Option<TypeAffinity>,
    typeSpec: ColumnTypeSpec)

  datatype ColumnTypeSpec = ColumnTypeSpec(isNullable: bool, declaration: ClassDecl, dataType: ColumnDataType)

  /** A column is either a plain value or an embedded object whose own columns are stored inline. */
  datatype ColumnDataType = ClassColumn | Embedded(columns: seq<ColumnSpec>)

  datatype EntitySpec = EntitySpec(declaration: ClassDecl, columns: seq<ColumnSpec>)

  /** One occurrence of a typed value: its nullability and its shape. */
  datatype DataTypeSpec = DataTypeSpec(isNullable: bool, dataType: DataType)

  /** The shapes of `DataTypeSpec.DataType`: the `Data` family (`Entity`, `Compound`, `Class`)
      and the `Wrapper` family (`Collection`, `Stream`), each wrapper holding the wrapped spec. */
  datatype DataType =
    | Entity(entity: EntitySpec)
    | Compound(compound: CompoundSpec)
    | Class
    | Collection(wrapped: DataTypeSpec)
    | Stream(wrapped: DataTypeSpec)
  {
    predicate IsData() {
      Entity? || Compound? || Class?
    }

    predicate IsWrapper() {
      Collection? || Stream?
    }
  }

  datatype CompoundPropertySpec = CompoundPropertySpec(name: string, dataTypeSpec: DataTypeSpec)

  /** A relation of a compound: the child-side property and the SQL name of the parent column
      whose value keys the child query. */
  datatype RelationSpec = RelationSpec(property: CompoundPropertySpec, parentColumn: string)

  datatype CompoundSpec = CompoundSpec(
    declaration: ClassDecl,
    mainProperty: CompoundPropertySpec,
    relations: seq<RelationSpec>)

  /** The kinds of `DaoActionSpec`; a function without an action is `None` in its `actionSpec`. */
  datatype DaoActionSpec = Delete | Insert | Update | Upsert | Query | RawQuery

  datatype TransactionSpec = TransactionSpec

  datatype DaoFunctionSpec = DaoFunctionSpec(
    name: string,
    parameters: seq<string>,
    returnTypeSpec: Option<DataTypeSpec>,
    actionSpec: Option<DaoActionSpec>,
    transactionSpec: Option<TransactionSpec>)

  datatype DaoSpec = DaoSpec(name: string, functionSpecs: seq<DaoFunctionSpec>)

  /** The exceptions that abort generation of one entity or DAO. */
  datatype GenError =
    | UndefinedAffinity            // getParseFunction on UNDEFINED
    | NoParser(qualifiedName: Option<string>)   // supportedParsers.getValue misses
    | UnresolvedColumn(parentColumn: string)    // columns.first finds nothing
    | NestedStreams                // a stream wrapping a stream
    | UnsupportedReturnRoot        // a wrapper chain ending at an Entity or a Class
    | UnsupportedCompoundRoot      // a compound rooted on Class, Collection or Stream
    | SubCompoundNotEntity         // the cast of a sub-compound's main property to Entity fails

  /** Helpers the generators call whose definitions are not part of this model; each is an
      arbitrary total function, so every result proved here holds whatever they compute. */
  datatype Helpers = Helpers(
    toPascalCase: string -> string,
    /** `typeInitializer(properties, isForReturn)` with the compound's class name substituted. */
    typeInitializer: (string, seq<string>, bool) -> string,
    getDataReturnType: DataTypeSpec -> DataTypeSpec,
    getAdapterReference: (ClassDecl, Option<TypeAffinity>) -> Option<AdapterRef>,
    sqlType: ClassDecl -> TypeAffinity,
    adapterPropertyName: AdapterRef -> string,
    /** How a class name is written where the emitter substitutes `%T`. */
    className: ClassDecl -> string)
}

=== FILE: wrappers.dfy ===
/** Failure-compatible Option and Result types used by every generator in this model.
    A `Failure` stands for an exception that aborts generation of the current unit. */
module Wrappers {

  datatype Option<+T> = None | Some(value: T)

  datatype Result<+R, +E> = Success(value: R) | Failure(error: E) {

    predicate IsFailure() {
      Failure?
    }

    function PropagateFailure<U>(): Result<U, E>
      requires Failure?
    {
      Failure(error)
    }

    function Extract(): R
      requires Success?
    {
      value
    }
  }
}
